=== FILE: README.md ===
# Gocker core, modelled in Dafny

Gocker is a small Linux container runtime (`gocker run|ps|stop|rm|logs`)
written in Go. Nearly all of `main.go` is shell-outs, system calls and file
I/O. Inside it sit a handful of sequential decision procedures, and these are
what this project models and proves things about:

- **Resource limits** (`limits.dfy`, module `Limits`). `parseCPULimit` turns
  a core count into the cgroup v2 `cpu.max` line `"<quota> 100000"`.
  `parseMemoryLimit` turns `512M`-style text into the byte count written to
  `memory.max`.
- **IP address management** (`ipam.dfy`, module `Ipam`). The IPAM file maps
  each container id to an address in `10.0.0.0/24`, and a cursor says where
  the search for the next free host octet starts. `allocateIP` and
  `releaseIP` are modelled as functions from the old state to the new one.
- **Container id resolution** (`ids.dfy`, module `ContainerIds`).
  `resolveContainerID` maps a possibly partial id to the single state file
  `<id>.json` whose id starts with it.
- **Volume specifications** (`volumes.dfy`, module `Volumes`). `run` joins
  its `-v host:container` flags with `|`. The string part of `mountVolumes`
  checks each entry and produces the bind mounts.
- **Network names** (`netnames.dfy`, module `NetNames`). This covers:
  - the veth pair names derived from a container id;
  - the interface `getDefaultInterface` reads from `ip route show default`;
  - the veth name the container finds in `ip link show type veth`.
- **`run` arguments** (`runargs.dfy`, module `RunArgs`). The option loop
  separates `--cpu-limit`, `--memory-limit`, `-v`, `-d` and `--rootfs` from
  the command to run.
- **Container lifecycle** (`lifecycle.dfy`, module `Lifecycle`). These are
  the state records and what `ps`, `stop` and `rm` do to them:
  - reconciling running records with dead processes;
  - the truncated display columns;
  - the branches of `stopContainer`;
  - the guard and delete of `removeContainer`.

Three support modules model the parts of Go's standard library that the core
relies on:

- `Text` (`text.dfy`): `strings.TrimSpace`, `Split`, `Join`, `Fields`,
  `ToUpper`, `HasPrefix`, `HasSuffix`, `TrimSuffix`, `Index` and `Contains`;
- `Numerals` (`numerals.dfy`): `strconv.ParseInt` with bit size 64,
  `FormatInt`, the decimal part of `ParseFloat`, and `int64` wrap-around;
- `Wrappers` (`wrappers.dfy`): `Option` and `Result`.

The environment becomes parameters:

- whether a process is alive (a successful `kill(pid, 0)`) is the set
  `live` of pids;
- whether SIGTERM could be delivered is the boolean `termSent`;
- the containers directory is the sequence of records in listing order,
  where the record in `<id>.json` has that id;
- the IPAM file is an `IpamState` value.

## Model

| member | source | states |
|---|---|---|
| `Limits.ParseCpuLimit` | main.go:692-713 | `""` and `"max"`, and nothing else, give `max 100000`. Every other success is a quota numeral (canonical decimal) followed by the fixed period `100000`. |
| `Limits.CpuQuota` | main.go:706-710 | With exact decimal arithmetic, the quota is period × cores rounded down to whole microseconds: quota × 10^scale ≤ 100000 × mantissa < (quota + 1) × 10^scale. |
| `Limits.CpuOfPositive` | main.go:697-712 | With exact decimal arithmetic, any positive core count that reads as a decimal gives its rounded-down quota, then the period. |
| `Limits.CpuWholeCores` | main.go:697-712 | With exact decimal arithmetic, a whole number n ≥ 1 of cores gives quota n × 100000 over period 100000. The source's float64 product agrees while n × 100000 ≤ 2^53 (see Left out and Findings). |
| `Limits.CpuFractionalCores` | main.go:706-712 | With exact decimal arithmetic, a positive decimal `w.f` with at most five decimals gives `w·100000 + f·10^(5-|f|)` microseconds of quota. Go's binary rounding can make it one lower (see Left out). |
| `Limits.CpuNegative` | main.go:697-704 | In this model, a minus sign before any unsigned number is refused as "not positive". |
| `Limits.CpuNegativePoint` | main.go:697-704 | In this model, `-w.f` is refused as "not positive", whatever its digits. |
| `Limits.CpuNegativeWhole` | main.go:697-704 | In this model, `-n` is refused as "not positive", `-0` included. |
| `Limits.CpuZero` | main.go:697-704 | `0` cores is refused as "not positive". |
| `Limits.CpuZeroPoint` | main.go:697-704 | Zero with zero decimals, such as `0.0` or `0.000`, is refused as "not positive". |
| `Limits.CpuNoDigit` | main.go:697-700 | In this model, text with no digit, other than `""` and `max`, is refused as malformed. The source's `ParseFloat` also accepts the digit-free `inf`, `infinity` and `nan` (see Left out). |
| `Limits.CpuOfDigits` | main.go:697-712 | With exact decimal arithmetic: any sign, digits, `.` and digits, including `.5`, `+2.` and `02.50`: a minus sign or a zero value is refused as "not positive", and anything else gets its rounded-down quota and the period. |
| `Limits.CpuOfDigitsWhole` | main.go:697-712 | With exact decimal arithmetic: any sign and digits, leading zeros included; a minus sign or zero is refused as "not positive", and n cores otherwise give quota n × 100000. |
| `Limits.CpuTwoDots` | main.go:697-700 | A core count with a second `.` is refused as malformed. |
| `Limits.ParseCpuLimitAsWritten` | main.go:692-713 | The code as written, with the quota converted to `int64` as amd64 does. It fails on exactly the same inputs as the exact model, and is unlimited on exactly `""` and `"max"`. |
| `Limits.CpuAsWrittenAgreesWithinInt64` | main.go:710-712 | When the quota fits in `int64`, the code as written and the exact model give the same result. |
| `Limits.CpuOverflowAsWritten` | main.go:710-712 | When n × 100000 exceeds `int64` (from 92233720368548 cores on), the code as written writes `-9223372036854775808 100000`, while the exact model gives quota n × 100000. |
| `Limits.CpuTableTests` | main_test.go:384-390 | `1`, `0.5` and `2` give quotas 100000, 50000 and 200000. `max` and `""` are unlimited. `-1` is refused as not positive, `invalid` as malformed. |
| `Limits.ParseMemoryLimit` | main.go:716-747 | `""` and `"max"`, and nothing else, give `max`. Every other success is the canonical numeral of a positive byte count. Take the text trimmed, upper-cased and stripped of one `K`/`M`/`G`: the limit is refused as malformed exactly when that is not an `int64` numeral, and as "not positive" exactly when it is zero or negative. |
| `Limits.MemoryOfDigits` | main.go:721-746 | Any sign and digits, leading zeros included, with no unit or `K`/`M`/`G` in either case (`+512M`, `0512m`): refused as malformed when the number does not fit in `int64`, as "not positive" when it is zero or negative, and otherwise the exact byte count. |
| `Limits.MemoryPadded` | main.go:721 | White space before or after a memory limit changes nothing. |
| `Limits.ParseMemoryRequest` | main.go:716-743 | `""` and `"max"`, and nothing else, mean no limit. A sized request has a value from 1 to the largest `int64` and a multiplier of 1, 1024, 1024² or 1024³. |
| `Limits.FractionalMemory` | main.go:736-739 | A fraction of a unit, `1.5G`, is refused as malformed. |
| `Limits.TwoLetterUnitMemory` | main.go:724-739 | Only one-letter units are known: `12KB` is refused as malformed. |
| `Limits.MemoryRoundTrip` | main.go:721-746 | A positive `int64` n written with no unit or with `K`/`M`/`G` in either case gives the numeral of n × 1, 1024, 1024² or 1024³. |
| `Limits.MemoryNotPositive` | main.go:741-743 | Zero or a negative `int64` is refused with "not positive", whatever its unit. |
| `Limits.MemoryTableTests` | main_test.go:417-423 | The byte counts for `512M` (also `512m`), `1G` and `256K`. `max` and `""` are unlimited. `-1M` and `0` are not positive and `invalid` is malformed. |
| `Limits.ParseMemoryLimitAsWritten` | main.go:716-747 | The code as written, with the product wrapped to `int64`. It fails on exactly the same inputs as the exact model, and is unlimited on exactly `""` and `"max"`. |
| `Limits.AsWrittenAgreesWithinInt64` | main.go:745-746 | When the byte count fits in `int64`, the code as written and the exact model give the same result. |
| `Limits.AsWrittenDiverges` | main.go:745-746 | When the byte count of a valid request exceeds `int64`, the code as written gives a different answer from the true byte count. |
| `Limits.MemoryOverflowAsWritten` | main.go:745-746 | `8589934592G` is 2^63 bytes. The code as written writes the negative numeral `-9223372036854775808`, while the exact model gives 2^63. |
| `Ipam.Address` | main.go:366 | A candidate address always starts with `10.0.0.`. |
| `Ipam.AddressInjective` | main.go:366 | Different host octets give different addresses. |
| `Ipam.BridgeIsOctetOne` | main.go:365-366 | Only octet 1 gives the bridge address `10.0.0.1`. |
| `Ipam.InitialValid` | main.go:316-319 | The fresh state (no addresses, cursor 2) satisfies the IPAM invariant: the cursor is in range, addresses are unique, and every address is a candidate below the cursor. |
| `Ipam.Allocate` | main.go:353-389 | An id that already has an address gets it back, with the state unchanged. Otherwise the call fails exactly when every candidate from the cursor to 254 is taken. If it succeeds, the id gets the first free candidate n at or after the cursor: n is held by no id, every candidate from the cursor up to n is held, and the cursor moves to n + 1. |
| `Ipam.FirstFree` | main.go:365-386 | The result is the first candidate from the start octet to 254 whose address is not in use: every octet before it is in use. There is none exactly when all of them are in use. |
| `Ipam.Release` | main.go:392-400 | The id loses its address. Every other id keeps its own, and the cursor stays where it was. |
| `Ipam.AllocatePreservesValid` | main.go:353-389 | A successful allocation keeps the IPAM invariant, so no two containers ever share an address. |
| `Ipam.ReleasePreservesValid` | main.go:392-400 | A release keeps the IPAM invariant. |
| `Ipam.AllocateIdempotent` | main.go:359-362 | Allocating again for the same id returns the same address and changes nothing. |
| `Ipam.NeverBridge` | main.go:365-385 | In a valid state no container holds the bridge address. |
| `Ipam.NoReuseBelowCursor` | main.go:365-385 | A new id never gets an address below the cursor, even a released one, and the cursor strictly advances. |
| `Ipam.ExhaustedForever` | main.go:365-388 | Once the cursor is past 254 no new id can be served, even after another container's address is released. |
| `Ipam.ReleaseUndoesAllocate` | main.go:353-400 | Releasing a freshly allocated id restores the address map. The cursor stays advanced. |
| `Ipam.FirstAllocation` | main_test.go:263-296 | From the fresh state, the first container gets `10.0.0.2`. Asking again returns the same address. Releasing it leaves an empty map with cursor 3. |
| `ContainerIds.IdOf` | main.go:273-277 | A directory entry stands for an id exactly when it ends in `.json`, and that id is the name less the suffix. |
| `ContainerIds.Candidates` | main.go:272-281 | The matching ids are exactly the ids of the `.json` entries that start with the partial id. |
| `ContainerIds.Resolve` | main.go:262-290 | The result is "not found" exactly when no state file matches. Any other error is "ambiguous". A success is the id of a matching state file, so it starts with the partial id. |
| `ContainerIds.CandidatesTwo` | main.go:272-281 | At least two ids are collected exactly when two different entries match. |
| `ContainerIds.ResolveAmbiguous` | main.go:286-288 | The id is ambiguous exactly when two different state files match it. |
| `ContainerIds.ResolveUnique` | main.go:289 | When exactly one state file matches, its id is the answer. |
| `ContainerIds.FullIdResolves` | main_test.go:353-359 | When all ids have one length, as generated ids do, a full id resolves to itself. |
| `ContainerIds.FullIdPrefixOfAnother` | main.go:286-288 | A full id that is a prefix of another listed id is ambiguous. |
| `ContainerIds.SelfResolve` | main.go:272-289 | A full id either resolves to itself or is ambiguous. It is never "not found". |
| `ContainerIds.ResolveFullAfterPartial` | main.go:262-290 | Once a partial id has resolved, the full id it resolved to resolves to the same id. This is how `stop` re-finds the record. |
| `ContainerIds.ResolutionTests` | main_test.go:327-374 | With the one state file of `1234567890123456789`: the full id and `123456` resolve to it, and `nonexistent` is not found. |
| `Volumes.ParseEntry` | main.go:1175-1196 | An entry is skipped exactly when it is blank. Every mount it yields has trimmed, non-empty sides with no `:`, and an absolute container path. |
| `Volumes.EntryOfSides` | main.go:1181-1196 | `host:container` with trimmed, colon-free sides is refused for a blank side, refused for a relative container path, and otherwise mounts exactly those two paths. |
| `Volumes.Collect` | main.go:1175-1196 | The entry loop yields at most one volume per entry; `Volumes.CollectSpec` says which. |
| `Volumes.CollectSpec` | main.go:1175-1196 | The entry loop fails exactly when some entry is bad, and then with a bad entry's error. On success every volume comes from a mount entry. |
| `Volumes.Entries` | main.go:1173-1175 | There is one classified entry per `|`-separated piece of the string, in order. |
| `Volumes.ParseVolumes` | main.go:1172-1196 | A volume string yields at most one mount per `|`-separated piece; `Volumes.ParseVolumesSpec` says which. |
| `Volumes.ParseVolumesSpec` | main.go:1172-1196 | The volume string is refused exactly when one of its `|`-separated entries is bad. On success every mount is valid. |
| `Volumes.MountHasNoBar` | main.go:1173-1189 | Neither side of a mount parsed from one entry contains `|`. |
| `Volumes.RenderEntry` | main.go:1181-1196 | A valid volume written as `host:container` parses back to itself. |
| `Volumes.RoundTrip` | main.go:1172-1196 | Volume flags joined with `|` by `run` are parsed back by `mountVolumes` into exactly the same list, as long as no side contains `|`. |
| `Volumes.CollectSkip` | main.go:1176-1179 | A blank entry anywhere changes nothing. |
| `Volumes.BlankEntriesSkipped` | main.go:1173-1179 | A doubled `|` and a trailing blank entry are skipped. |
| `Volumes.WrongPartCountCases` | main.go:1182-1185 | An entry with no `:` or with two is refused as malformed. |
| `Volumes.EmptyPartCase` | main.go:1187-1192 | An entry with a blank side is refused. |
| `Volumes.RelativePathCase` | main.go:1194-1196 | A relative container path is refused, and the error names it. |
| `NetNames.ShortId` | main.go:499-502 | The short id is a prefix of the id, at most eight characters long, and exactly eight when the id is that long. |
| `NetNames.VethHost` | main.go:498-512 | The host end is `veth` and the short id, at most 12 characters. So it never hits the 15-character cut. |
| `NetNames.VethPeer` | main.go:498-512 | The container end is `vethc` and the short id, at most 13 characters. So it never hits the 15-character cut. |
| `NetNames.VethHostCollision` | main.go:499-503 | Two containers get the same host interface name exactly when their ids agree in the first eight characters. |
| `NetNames.VethPeerCollision` | main.go:499-504 | Two containers get the same container interface name exactly when their ids agree in the first eight characters. |
| `NetNames.HostNeverPeer` | main.go:499-504 | With ids of at least eight characters, a host name never equals any container's peer name. |
| `NetNames.ShortIdsOverlap` | main.go:499-504 | With shorter ids the two name families can meet: the host name of `c1` is the peer name of `1`. |
| `NetNames.DevAfter` | main.go:585-589 | The word found is the one after the first `dev` that has a successor. Nothing is found exactly when no `dev` has a successor. |
| `NetNames.FirstInterface` | main.go:582-591 | The result is the interface of the first line that names one. It is none exactly when no line does. |
| `NetNames.DefaultInterface` | main.go:573-594 | A found interface is a single word with no white space. |
| `NetNames.DefaultRouteInterface` | main.go:580-591 | The output `default via <gateway> dev <iface>` yields `<iface>`. |
| `NetNames.LinkName` | main.go:1098-1110 | A name taken from a link line starts with `veth`, has no `@` suffix, and comes from a line that mentions `veth`. |
| `NetNames.FirstLink` | main.go:1097-1111 | The result is the name from the first line that yields one. It is none exactly when no line does. |
| `NetNames.FindVeth` | main.go:1094-1111 | One poll of `ip link show type veth` finds a `veth…` name without its `@ifN` suffix, or nothing. |
| `NetNames.LinkLineName` | main.go:1100-1108 | The line `<index>: <name>@<peer>: …` yields `<name>`. |
| `RunArgs.WithValue` | main.go:763-787 | A value option changes only its own field. The command and detach flag are untouched. |
| `RunArgs.Scan` | main.go:761-788 | The loop never drops a command word, and adds at most one per argument; `RunArgs.ScanCommand` says which. |
| `RunArgs.ScanCommand` | main.go:761-788 | The loop only appends to the command. What it appends are words of the arguments that are not options, at most one per argument. |
| `RunArgs.Parse` | main.go:753-794 | A successful parse has a non-empty command, and none of its words is an option. Arguments that are all options are refused with "command required". |
| `RunArgs.ScanOptionArgs` | main.go:761-788 | The option part of `gocker run [options] <command>` sets exactly those options. |
| `RunArgs.RoundTrip` | main.go:761-794 | Options written before a command with no option-like word are parsed back exactly. |
| `RunArgs.CommandWordTakenAsOption` | main.go:761-788 | As written, `run ls -d /` starts `ls /` detached: a command word that looks like an option is taken as one. |
| `RunArgs.ScanStrict` | main.go:761-788 | Scanning options up to the first command word either leaves the command unset or sets it to at most as many words as there are arguments. |
| `RunArgs.ScanStrictCommand` | main.go:761-788 | When option scanning stops at the first command word, the command is a suffix of the arguments. |
| `RunArgs.ParseStrict` | main.go:761-794 | A successful parse with options only before the command has a command of one to all of the arguments. |
| `RunArgs.StrictRoundTrip` | main.go:761-794 | With options only before the command, any command whose first word is not an option is read back exactly, option-like words included. |
| `Lifecycle.Files` | main.go:196-201 | The listing has one `<id>.json` per record, in order. |
| `Lifecycle.IndexOf` | main.go:228-236 | The position found holds a record with the id. None is found exactly when no record has it. |
| `Lifecycle.Locate` | main.go:228-259 | A partial id selects a record position exactly when `resolveContainerID` succeeds on the listing. Otherwise the resolution error is passed on. |
| `Lifecycle.LocateSameIds` | main.go:228-236 | Which record a partial id selects depends only on the ids in the listing. |
| `Lifecycle.UpdateStatus` | main.go:293-301 | Only the status of the record the id resolves to changes, and it becomes the new status. A non-resolving id changes nothing. |
| `Lifecycle.UpdateAt` | main.go:293-301 | Updating a located record's status replaces that record alone. |
| `Lifecycle.Reconciled` | main.go:1277-1283 | A running record whose pid is not alive becomes exited. No other field changes, and no other status changes. |
| `Lifecycle.DisplayId` | main.go:1290-1293 | The id column is a prefix of the id. It is at most 12 characters long, exactly 12 for longer ids, and the whole id otherwise. |
| `Lifecycle.DisplayCommand` | main.go:1285-1288 | The command column is at most 30 characters. A longer command shows its first 27 characters and `...`. |
| `Lifecycle.DisplayIp` | main.go:1295-1298 | The IP column is never empty. It shows `-` for a container without an address. |
| `Lifecycle.List` | main.go:1245-1303 | `ps` keeps every record's id and position. It reconciles exactly the records that load by their full id, leaves the rest untouched, and prints one row per loaded record. |
| `Lifecycle.Rows` | main.go:1265-1302 | The listing prints at most one row per record it reads. |
| `Lifecycle.ListOne` | main.go:1265-1302 | One turn of the listing loop handles the next file and keeps the loop invariant. |
| `Lifecycle.LocateOwnId` | main.go:1270-1275 | While listing, a record's own id finds that record exactly when it loads, even after earlier records were reconciled. |
| `Lifecycle.UniformLoadable` | main.go:1270-1275 | When all ids have one length, every record loads in `ps`. |
| `Lifecycle.DisplayIdResolves` | main.go:1290-1293 | The shortened id `ps` shows selects that record in `stop`/`rm` when no other id starts with it. |
| `Lifecycle.Stop` | main.go:1305-1358 | A non-resolving id is refused with the resolution error. A failed SIGTERM is refused exactly when the record is running, its pid is alive and the signal cannot be sent. A record that is not running leaves the host unchanged. |
| `Lifecycle.StopFinal` | main.go:1317-1353 | After a successful stop, a running record ends exited (pid already dead) or stopped. No other record changes and its address is released. A non-running record is left as it was. |
| `Lifecycle.DeleteFile` | main.go:1384-1388 | Deleting a state file never adds records; `Lifecycle.DeleteFileMembers` says which remain. |
| `Lifecycle.DeleteFileMembers` | main.go:1384-1388 | Deleting a state file keeps exactly the records of other ids. |
| `Lifecycle.DeleteFileAt` | main.go:1384-1388 | With distinct ids, deleting a record's file removes exactly that position. |
| `Lifecycle.Remove` | main.go:1360-1399 | A non-resolving id is refused with the resolution error. "Still running" is refused exactly when the record is running and its pid alive. A refusal changes nothing. |
| `Lifecycle.RemoveKeepsOthers` | main.go:1373-1388 | After a successful remove, the store holds exactly the records whose id differs from the removed one. |
| `Lifecycle.RemoveExactly` | main.go:1373-1388 | With distinct ids, a successful remove deletes exactly the selected record and keeps the ids distinct. |
| `Lifecycle.RemoveThenNotFound` | main.go:1360-1388 | After a remove, the same partial id finds nothing. |
| `Lifecycle.StopThenRemove` | main.go:1317-1378 | A container that was stopped can always be removed, whichever processes are alive later. |
| `Lifecycle.StopKeepsIpamValid` | main.go:1323-1350 | Stopping keeps the IPAM invariant. |
| `Lifecycle.RemoveKeepsIpamValid` | main.go:1381 | Removing keeps the IPAM invariant. |
| `Text.TrimSpacePadded` | main.go:721 | Trimming white-space padding around non-empty trimmed text gives back exactly that text. |
| `Text.TrimSpace` | main.go:721 | The result has no leading or trailing white space. |
| `Text.SplitSpec` | main.go:1173 | The pieces of a split contain no separator and join back to the input. |
| `Text.SplitJoin` | main.go:1173 | Splitting the join of separator-free pieces gives back the pieces. |
| `Text.Fields` | main.go:584 | Every field is non-empty and has no white space. |
| `Text.FieldsJoin` | main.go:1100 | The fields of words joined by spaces are the words. |
| `Numerals.ParseInt64` | main.go:736 | A parsed value always lies within `int64`. |
| `Numerals.ParseInt64Digits` | main.go:736 | An optional sign and any digits, leading zeros included, read as their value when it fits in `int64`, and are refused otherwise. |
| `Numerals.ParseInt64Shape` | main.go:736 | Whatever is accepted is an optional sign and a non-empty digit string, read as its value. |
| `Numerals.FormatInt` | main.go:746 | The numeral is never empty, and starts with `-` exactly when the number is negative. |
| `Numerals.ParseFormatInt` | main.go:736 | Every `int64` written in decimal parses back to itself. |
| `Numerals.FormatIntInjective` | main.go:746 | Different integers have different decimal numerals. |
| `Numerals.CanonicalIsDecimalString` | main.go:746 | A canonical decimal numeral is the numeral of its own value. |
| `Numerals.Wrap64` | main.go:745 | The wrapped value is in `int64` and congruent to the exact one modulo 2^64. It equals the exact one when that fits. |
| `Numerals.ParseFixed` | main.go:697 | A literal that reads as a number has fewer decimals than characters. |
| `Numerals.ParseFixedSign` | main.go:697 | A sign before an unsigned literal changes only the sign of the result. |
| `Numerals.ParseFixedDigits` | main.go:697 | Any sign, digits, `.` and digits, with a digit on at least one side of the `.`, reads as the digits together at scale "number of decimals". The whole part may be empty or zero-padded. |
| `Numerals.ParseFixedDigitsWhole` | main.go:697 | Any sign and non-empty digits read as that whole number, leading zeros included. |
| `Numerals.ParseFixedPoint` | main.go:697 | `w.f` reads as the decimal `w + f/10^|f|`. |
| `Numerals.ParseFixedNegated` | main.go:697 | A leading minus reads exactly when the rest does, as the same digits with the sign flipped. |
| `Numerals.ParseFixedNoDigit` | main.go:697 | Text with no digit does not read as a number. |
| `Numerals.ParseFixedTwoDots` | main.go:697 | Text with two `.`s does not read as a number. |

## Left out

- `Limits.ParseCpuLimit`: the quota is the exact decimal product, rounded down. The source computes `int64(float64(100000) * cpu)` in binary floating point, and for values in `float64`'s normal range its result can differ by one in either direction: `0.29` gives 28999 in Go and 29000 here, and `0.06999999999999999999` gives 7000 in Go and 6999 here.
- `Limits.ParseCpuLimit`: a positive literal at or below 2^-1075 (about 2.5e-324) rounds to zero in `ParseFloat` without an error, and the source then refuses it as "not positive". Here it gets quota 0, like any other count below 0.00001 cores.
- `Limits.ParseCpuLimitAsWritten`: the same underflow refusal is missing here. Such a literal gets quota 0.
- `Limits.ParseCpuLimit`: a literal beyond the largest `float64` (about 1.8e308) makes `ParseFloat` fail with a range error in the source. Here it reads as a number and gives a very large quota. A negative literal beyond −MaxFloat64 is refused as malformed in the source and as not positive here.
- `Limits.ParseCpuLimit`: a quota beyond `int64` is not converted. The source's conversion is modelled separately by `Limits.ParseCpuLimitAsWritten`; see Findings.
- `Limits.CpuWholeCores`: the quota n × 100000 is exact. The source's `float64` product is exact only while n × 100000 ≤ 2^53. Above that it is rounded to a nearby representable value, and from 92233720368548 cores on it overflows `int64`.
- `Limits.CpuFractionalCores`: the quota is exact. The source's `ParseFloat` rounds the literal to binary first, so `0.29` gives 28999 in Go.
- `Limits.CpuQuota`: the product is exact decimal arithmetic. The source's binary product can be one lower or higher, as on the first `Limits.ParseCpuLimit` line (`0.29` gives 28999 in Go).
- `Limits.CpuOfPositive`: it states the exact-decimal quota. The source differs by the rounding, underflow and `int64` overflow described on the `Limits.ParseCpuLimit` lines.
- `Limits.CpuOfDigits`: as for `Limits.CpuOfPositive`. It also gives "not positive" for a negative literal beyond −MaxFloat64, which the source refuses as malformed.
- `Limits.CpuOfDigitsWhole`: the quota n × 100000 is exact. The source rounds above 2^53 and gives `-9223372036854775808` on amd64 from 92233720368548 cores on; see Findings. Negative literals beyond −MaxFloat64 are malformed in the source, as for `Limits.CpuOfDigits`.
- `Limits.CpuNegative`: the refusal as "not positive" holds for negative literals within `float64`'s range. Beyond −MaxFloat64, `ParseFloat` fails with a range error and the source reports "invalid CPU limit format".
- `Limits.CpuNegativePoint`: the same range-error case as `Limits.CpuNegative`, for `-w.f` with more than 309 whole digits.
- `Limits.CpuNegativeWhole`: the same range-error case as `Limits.CpuNegative`, for `-n` with more than 309 digits.
- `Limits.ParseCpuLimitAsWritten`: an out-of-range conversion gives the smallest `int64`, as on amd64; arm64 saturates to the largest instead. Floating-point rounding is left out here too, so the boundary between the two branches may be off by a few units near 2^63 microseconds.
- `Limits.ParseCpuLimit`: `strconv.ParseFloat`'s exponent, `inf`, `nan`, hexadecimal forms, and the underscores it allows in hexadecimal forms, are treated as malformed. They would need a model of IEEE 754 conversion.
- `Limits.CpuNoDigit`: the refusal holds only in this model. In the source, `ParseFloat` accepts `inf`, `infinity` and `nan` in any case, and the first two also with a sign. Positive infinity and NaN pass the `cpu <= 0` test, and on amd64 the conversion turns them into the quota `-9223372036854775808`; `-inf` is refused as not positive.
- `Limits.ParseMemoryLimit`: the byte count is exact. The source's `int64` wrap-around is modelled separately by `Limits.ParseMemoryLimitAsWritten`; see Findings.
- `Text.ToUpper` upper-cases ASCII letters only. Upper-casing other characters cannot produce a digit, a sign or `K`/`M`/`G`, so no memory limit parses differently.
- Lengths and truncations count characters, whereas Go's `len` and slicing count UTF-8 bytes. Ids are generated hex, so they are ASCII. A command with multi-byte characters may be cut at a different point in the `ps` column.
- The store is a sequence of records in listing order, not the on-disk files. JSON encoding, `flock`, and read and write errors of the state and IPAM files are not modelled.
- Files in the containers directory that are not state files are not modelled. The model's listing holds only state files, while `listContainers` skips other names.
- Concurrency is not modelled: IPAM file access is unlocked in the source, and allocation is modelled sequentially.
- The liveness check `kill(pid, 0)` is the parameter `live`, and SIGTERM delivery is the parameter `termSent`. The sleeps, the SIGKILL after the grace period, and the signal-handling goroutine of `run` are timing and are not modelled.
- The `ps` creation-time column is left out, because the time format is library code.
- A failed status save in `updateContainerStatus` is only a warning in the source and is not modelled.
- `rm`'s log file removal and cgroup clean-up are file I/O.
- `Volumes.ParseVolumesSpec`: only the pure checks are modelled. The host-path existence check (`os.Stat`), mount-point creation and the bind mounts are I/O. `mountVolumes` also mounts earlier entries before a later bad entry fails; the model only says whether the whole string is accepted.
- `NetNames.VethHost` and `NetNames.VethPeer`: the 15-character cut is kept out of the result. It never applies, because the names are at most 13 characters long.
- `NetNames.FindVeth`: models one poll of `ip link show type veth`. The source's retry loop (up to 50 polls, 100 ms apart) and its time-out are timing and are not modelled.
- Only the naming and parsing around the `ip`, `iptables` and `sysctl` commands is modelled. The commands themselves (`ensureBridge`, `setupNATRules`, the effects of `setupContainerNetwork`, `cleanupVeth`) are not, nor is the address assignment and route set-up in `configureContainerNetwork`.
- The cgroup functions (`createContainerCgroup`, `enableCgroupControllers`, `setupContainerCgroup`, `addToCgroup`, `cleanupContainerCgroup`) only write files.
- `child` is namespace set-up, mounts, chroot and exec of the user command.
- `generateContainerID` depends on randomness and the clock. `resolveRootfsPath` probes the filesystem. `showLogs` copies bytes.
- The GUI (`gui.go`, `gui_stub.go`) is a separate front end. Its container list repeats the `ps` reconciliation.
- `Lifecycle.Remove`: its success contract refers to `DeleteFile` and `Ipam.Release`. What deletion means is stated by `Lifecycle.RemoveKeepsOthers` and `Lifecycle.RemoveExactly`.

## Findings

| source | as written | input that shows it | evidently intended | confidence | as-written member | corrected member |
|---|---|---|---|---|---|---|
| main.go:745-746 | `bytes := value * multiplier` is an unchecked `int64` product | `--memory-limit 8589934592G` (2^33 G = 2^63 bytes) writes `-9223372036854775808` to `memory.max` | the byte count of the request, 9223372036854775808, or an error for a limit too large | high, not executed | `Limits.MemoryOverflowAsWritten` | `Limits.MemoryRoundTrip` |
| main.go:761-788 | options are recognised anywhere in the arguments, including after the command | `gocker run ls -d /` runs `ls /` detached instead of `ls -d /` | options only before the command, as the usage `gocker run [options] <command> [args...]` says | medium, not executed | `RunArgs.CommandWordTakenAsOption` | `RunArgs.StrictRoundTrip` |
| main.go:710-712 | `quota := int64(float64(period) * cpu)` converts without a range check | `--cpu-limit 92233720368548` (period × cores is 9223372036854800000, above 2^63 − 1) writes `-9223372036854775808 100000` to `cpu.max` on amd64 | the quota 9223372036854800000, or an error for a limit too large | medium, not executed | `Limits.CpuOverflowAsWritten` | `Limits.CpuWholeCores` |

=== FILE: ids.dfy ===
/** Resolution of a user-supplied (possibly partial) container id against
    the file names of the containers directory: each container's state
    lives in `<id>.json`, and any other file is ignored. */
module ContainerIds {
  import opened Wrappers
  import Text

  /** The suffix of a container state file. */
  const StateSuffix: string := ".json"

  datatype ResolveError =
    | NotFound(partial: string)    // no state file id starts with `partial`
    | Ambiguous(partial: string)   // more than one does

  /** The container id a file name stands for, when it is a state file. */
  function IdOf(name: string): (r: Option<string>)
    ensures r.Some? <==> Text.HasSuffix(name, StateSuffix)
    ensures r.Some? ==> r.value + StateSuffix == name
  {
    if Text.HasSuffix(name, StateSuffix) then Some(Text.TrimSuffix(name, StateSuffix)) else None
  }

  /** The state file of container `id` stands for `id`. */
  lemma IdOfStateFile(id: string)
    ensures IdOf(id + StateSuffix) == Some(id)
  {
    Text.TrimSuffixOfConcat(id, StateSuffix);
  }

  /** The id a state file name stands for: the name less its suffix. */
  function TrimSuffixId(name: string): (id: string)
    ensures Text.HasSuffix(name, StateSuffix) ==> IdOf(name) == Some(id)
  {
    Text.TrimSuffix(name, StateSuffix)
  }

  /** `name` is a state file whose id starts with `partial`. */
  predicate Matches(name: string, partial: string) {
    IdOf(name).Some? && Text.HasPrefix(IdOf(name).value, partial)
  }

  /** The ids of the state files in `names` that start with `partial`, in
      listing order. */
  function Candidates(names: seq<string>, partial: string): (r: seq<string>)
    ensures |r| <= |names|
    ensures forall id :: id in r <==>
              exists i :: 0 <= i < |names| && Matches(names[i], partial) && IdOf(names[i]).value == id
    decreases |names|
  {
    if |names| == 0 then []
    else
      var rest := Candidates(names[1..], partial);
      assert forall i :: 0 <= i < |names| - 1 ==> names[1..][i] == names[i + 1];
      if Matches(names[0], partial) then [IdOf(names[0]).value] + rest else rest
  }

  /** `resolveContainerID`: the one state file id that starts with
      `partial`; none is `NotFound`, several are `Ambiguous`. */
  function Resolve(names: seq<string>, partial: string): (r: Result<string, ResolveError>)
    ensures r == Err(NotFound(partial)) <==> forall i :: 0 <= i < |names| ==> !Matches(names[i], partial)
    ensures r.Err? ==> r == Err(NotFound(partial)) || r == Err(Ambiguous(partial))
    ensures r.Ok? ==> exists i :: 0 <= i < |names| && Matches(names[i], partial) && IdOf(names[i]).value == r.value
    ensures r.Ok? ==> Text.HasPrefix(r.value, partial)
  {
    var matches := Candidates(names, partial);
    assert forall i :: 0 <= i < |names| && Matches(names[i], partial) ==> IdOf(names[i]).value in matches;
    if |matches| == 0 then
      Err(NotFound(partial))
    else if |matches| > 1 then
      assert matches[0] in matches;
      Err(Ambiguous(partial))
    else
      assert matches[0] in matches;
      Ok(matches[0])
  }

  /** Two different listing positions match `partial`. */
  predicate TwoMatch(names: seq<string>, partial: string) {
    exists i, j :: 0 <= i < |names| && 0 <= j < |names| && i != j
                   && Matches(names[i], partial) && Matches(names[j], partial)
  }

  lemma CandidatesTwo(names: seq<string>, partial: string)
    ensures |Candidates(names, partial)| >= 2 <==> TwoMatch(names, partial)
  {
    if TwoMatch(names, partial) {
      TwoMatchCandidates(names, partial);
    }
    if |Candidates(names, partial)| >= 2 {
      CandidatesTwoMatch(names, partial);
    }
  }

  lemma {:induction false} TwoMatchCandidates(names: seq<string>, partial: string)
    requires TwoMatch(names, partial)
    ensures |Candidates(names, partial)| >= 2
    decreases |names|
  {
    var tail := names[1..];
    var rest := Candidates(tail, partial);
    var i, j :| 0 <= i < |names| && 0 <= j < |names| && i != j
                && Matches(names[i], partial) && Matches(names[j], partial);
    if i == 0 || j == 0 {
      var k := if i == 0 then j else i;
      assert Matches(tail[k - 1], partial);
      assert IdOf(tail[k - 1]).value in rest;
    } else {
      assert Matches(tail[i - 1], partial) && Matches(tail[j - 1], partial);
      TwoMatchCandidates(tail, partial);
    }
  }

  lemma {:induction false} CandidatesTwoMatch(names: seq<string>, partial: string)
    requires |Candidates(names, partial)| >= 2
    ensures TwoMatch(names, partial)
    decreases |names|
  {
    var tail := names[1..];
    var rest := Candidates(tail, partial);
    if Matches(names[0], partial) {
      assert rest[0] in rest;
      var k :| 0 <= k < |tail| && Matches(tail[k], partial) && IdOf(tail[k]).value == rest[0];
      assert Matches(names[k + 1], partial);
      assert 0 != k + 1;
    } else {
      CandidatesTwoMatch(tail, partial);
      var i, j :| 0 <= i < |tail| && 0 <= j < |tail| && i != j
                  && Matches(tail[i], partial) && Matches(tail[j], partial);
      assert names[i + 1] == tail[i] && names[j + 1] == tail[j];
    }
  }

  /** The id is ambiguous exactly when two state files match it. */
  lemma ResolveAmbiguous(names: seq<string>, partial: string)
    ensures Resolve(names, partial) == Err(Ambiguous(partial)) <==> TwoMatch(names, partial)
  {
    CandidatesTwo(names, partial);
  }

  /** When exactly one state file matches, its id is the answer. */
  lemma ResolveUnique(names: seq<string>, partial: string, i: int)
    requires 0 <= i < |names| && Matches(names[i], partial)
    requires forall j :: 0 <= j < |names| && j != i ==> !Matches(names[j], partial)
    ensures Resolve(names, partial) == Ok(IdOf(names[i]).value)
  {
    CandidatesTwo(names, partial);
  }

  /** No two listing entries are the same file. */
  predicate Distinct(names: seq<string>) {
    forall i, j :: 0 <= i < j < |names| ==> names[i] != names[j]
  }

  /** Every state file id in the listing has `len` characters, as
      generated ids do. */
  predicate UniformIds(names: seq<string>, len: nat) {
    forall i :: 0 <= i < |names| && IdOf(names[i]).Some? ==> |IdOf(names[i]).value| == len
  }

  /** With ids of one length, a full id resolves to itself. */
  lemma {:induction false} FullIdResolves(names: seq<string>, len: nat, i: int)
    requires Distinct(names) && UniformIds(names, len)
    requires 0 <= i < |names| && IdOf(names[i]).Some?
    ensures Resolve(names, IdOf(names[i]).value) == Ok(IdOf(names[i]).value)
  {
    var id := IdOf(names[i]).value;
    forall j | 0 <= j < |names| && j != i
      ensures !Matches(names[j], id)
    {
      if IdOf(names[j]).Some? {
        var other := IdOf(names[j]).value;
        assert names[j] != names[i] by {
          if i < j { } else { }
        }
        assert other != id;
        assert other[..|id|] == other;
      }
    }
    ResolveUnique(names, id, i);
  }

  /** A full id that is a proper prefix of another listed id is ambiguous:
      the code matches by prefix even when the input is a complete id. */
  lemma {:induction false} FullIdPrefixOfAnother(names: seq<string>, i: int, j: int)
    requires 0 <= i < |names| && 0 <= j < |names| && i != j
    requires IdOf(names[i]).Some? && IdOf(names[j]).Some?
    requires Text.HasPrefix(IdOf(names[j]).value, IdOf(names[i]).value)
    ensures Resolve(names, IdOf(names[i]).value) == Err(Ambiguous(IdOf(names[i]).value))
  {
    var id := IdOf(names[i]).value;
    assert id[..|id|] == id;
    assert Matches(names[i], id) && Matches(names[j], id);
    ResolveAmbiguous(names, id);
  }

  /** A full id always finds its own state file: it resolves to itself
      unless another id extends it. */
  lemma {:induction false} SelfResolve(names: seq<string>, i: int)
    requires 0 <= i < |names| && IdOf(names[i]).Some?
    ensures var id := IdOf(names[i]).value;
            Resolve(names, id) == Ok(id) || Resolve(names, id) == Err(Ambiguous(id))
  {
    var id := IdOf(names[i]).value;
    assert id[..|id|] == id;
    assert Matches(names[i], id);
    if Resolve(names, id).Ok? {
      ResolveAmbiguous(names, id);
      var j :| 0 <= j < |names| && Matches(names[j], id) && IdOf(names[j]).value == Resolve(names, id).value;
      assert !TwoMatch(names, id);
      assert j == i;
    }
  }

  /** Once a partial id has resolved, the full id it resolved to resolves
      to itself: every id extending it extends the partial id too. This is
      why the second lookup that `updateContainerStatus` makes with the full
      id finds the same container. */
  lemma {:induction false} ResolveFullAfterPartial(names: seq<string>, partial: string)
    requires Resolve(names, partial).Ok?
    ensures Resolve(names, Resolve(names, partial).value) == Resolve(names, partial)
  {
    var id := Resolve(names, partial).value;
    ResolveAmbiguous(names, partial);
    var i :| 0 <= i < |names| && Matches(names[i], partial) && IdOf(names[i]).value == id;
    assert id[..|id|] == id;
    forall j | 0 <= j < |names| && Matches(names[j], id)
      ensures Matches(names[j], partial)
    {
      Text.PrefixTransitive(IdOf(names[j]).value, id, partial);
    }
    assert !TwoMatch(names, partial);
    assert forall j :: 0 <= j < |names| && j != i ==> !Matches(names[j], partial);
    ResolveUnique(names, id, i);
  }

  /** The cases of `TestContainerIDResolution`, with one stored container. */
  lemma ResolutionTests()
    ensures Resolve(["1234567890123456789.json"], "1234567890123456789") == Ok("1234567890123456789")
    ensures Resolve(["1234567890123456789.json"], "123456") == Ok("1234567890123456789")
    ensures Resolve(["1234567890123456789.json"], "nonexistent") == Err(NotFound("nonexistent"))
  {
    var names := ["1234567890123456789.json"];
    IdOfStateFile("1234567890123456789");
    assert names[0] == "1234567890123456789" + StateSuffix;
    ResolveUnique(names, "1234567890123456789", 0);
    ResolveUnique(names, "123456", 0);
    assert "1234567890123456789"[..11][0] != "nonexistent"[0];
  }
}

=== FILE: ipam.dfy ===
/** IP address management for the container bridge network: which
    container holds which address of 10.0.0.0/24, and the cursor from
    which the next free host octet is searched. The state file is loaded,
    changed and saved as a whole, so each operation is a function from the
    old state to the new one. */
module Ipam {
  import opened Wrappers
  import Text
  import opened Numerals

  /** The network prefix every container address starts with. */
  const Subnet: string := "10.0.0."

  /** The host side of the bridge; never handed to a container. */
  const BridgeAddress: string := "10.0.0.1"

  /** The candidate host octets are FirstOctet .. LastOctet. */
  const FirstOctet: int := 2
  const LastOctet: int := 254

  /** The persisted IPAM state: container id -> address, and the cursor. */
  datatype IpamState = IpamState(addresses: map<string, string>, next: int)

  datatype IpamError = PoolExhausted

  /** The state used when no IPAM file exists yet. */
  const Initial: IpamState := IpamState(map[], FirstOctet)

  /** `fmt.Sprintf("10.0.0.%d", octet)`. */
  function Address(octet: int): (a: string)
    ensures Text.HasPrefix(a, Subnet)
  {
    Text.PrefixOfConcat(Subnet, FormatInt(octet));
    Subnet + FormatInt(octet)
  }

  /** Different octets give different addresses. */
  lemma AddressInjective(j: int, k: int)
    requires Address(j) == Address(k)
    ensures j == k
  {
    assert FormatInt(j) == Address(j)[|Subnet|..];
    assert FormatInt(k) == Address(k)[|Subnet|..];
    FormatIntInjective(j, k);
  }

  /** The bridge address is the octet 1, outside the candidate range. */
  lemma BridgeIsOctetOne(k: int)
    ensures Address(k) == BridgeAddress <==> k == 1
  {
    assert Address(1) == BridgeAddress;
    if Address(k) == BridgeAddress {
      AddressInjective(k, 1);
    }
  }

  /** No two containers hold the same address. */
  predicate Injective(m: map<string, string>) {
    forall a, b :: a in m && b in m && a != b ==> m[a] != m[b]
  }

  /** `a` is a container address below the cursor. */
  predicate IssuedBelow(a: string, next: int) {
    exists k :: FirstOctet <= k < next && a == Address(k)
  }

  /** What every state reachable from `Initial` satisfies: the cursor is
      within the range (or one past it), addresses are unique, and every
      address held is a candidate address already passed by the cursor. */
  predicate Valid(s: IpamState) {
    && FirstOctet <= s.next <= LastOctet + 1
    && Injective(s.addresses)
    && forall id :: id in s.addresses ==> IssuedBelow(s.addresses[id], s.next)
  }

  /** The first octet from `n` up to LastOctet whose address is not in `used`. */
  function FirstFree(used: set<string>, n: int): (r: Option<int>)
    ensures r.Some? ==> && n <= r.value <= LastOctet
                        && Address(r.value) !in used
                        && forall k :: n <= k < r.value ==> Address(k) in used
    ensures r.None? <==> forall k :: n <= k <= LastOctet ==> Address(k) in used
    decreases LastOctet + 1 - n
  {
    if n > LastOctet then None
    else if Address(n) !in used then Some(n)
    else FirstFree(used, n + 1)
  }

  /** `allocateIP`: an id that already holds an address keeps it and the
      state does not change; otherwise the id gets the first free candidate
      at or after the cursor, and the cursor moves just past it. When every
      candidate from the cursor on is taken the pool is exhausted and the
      stored state is not changed. */
  function Allocate(s: IpamState, id: string): (r: Result<(string, IpamState), IpamError>)
    ensures id in s.addresses ==> r == Ok((s.addresses[id], s))
    ensures r.Err? <==> id !in s.addresses && forall k :: s.next <= k <= LastOctet ==> Address(k) in s.addresses.Values
    ensures id !in s.addresses && r.Ok? ==>
              exists n :: && s.next <= n <= LastOctet
                          && r.value.0 == Address(n)
                          && r.value.0 !in s.addresses.Values
                          && (forall k :: s.next <= k < n ==> Address(k) in s.addresses.Values)
                        && r.value.1 == IpamState(s.addresses[id := Address(n)], n + 1)
  {
    if id in s.addresses then Ok((s.addresses[id], s))
    else
      match FirstFree(s.addresses.Values, s.next)
      case None => Err(PoolExhausted)
      case Some(n) => Ok((Address(n), IpamState(s.addresses[id := Address(n)], n + 1)))
  }

  /** `releaseIP`: forget the id's address; the cursor does not move back. */
  function Release(s: IpamState, id: string): (r: IpamState)
    ensures id !in r.addresses
    ensures forall other :: other != id ==>
              (other in r.addresses <==> other in s.addresses)
              && (other in s.addresses ==> r.addresses[other] == s.addresses[other])
    ensures r.next == s.next
  {
    IpamState(s.addresses - {id}, s.next)
  }

  lemma InitialValid()
    ensures Valid(Initial)
  {
  }

  lemma {:induction false} AllocatePreservesValid(s: IpamState, id: string)
    requires Valid(s) && Allocate(s, id).Ok?
    ensures Valid(Allocate(s, id).value.1)
  {
    if id !in s.addresses {
      var n := FirstFree(s.addresses.Values, s.next).value;
      var a := Address(n);
      var t := Allocate(s, id).value.1;
      assert t == IpamState(s.addresses[id := a], n + 1);
      forall x, y | x in t.addresses && y in t.addresses && x != y
        ensures t.addresses[x] != t.addresses[y]
      {
        if x == id {
          assert s.addresses[y] in s.addresses.Values;
        } else if y == id {
          assert s.addresses[x] in s.addresses.Values;
        }
      }
      forall x | x in t.addresses
        ensures IssuedBelow(t.addresses[x], t.next)
      {
        if x == id {
          assert FirstOctet <= n < t.next && t.addresses[x] == Address(n);
        } else {
          var k :| FirstOctet <= k < s.next && s.addresses[x] == Address(k);
          assert FirstOctet <= k < t.next;
        }
      }
    }
  }

  lemma ReleasePreservesValid(s: IpamState, id: string)
    requires Valid(s)
    ensures Valid(Release(s, id))
  {
    var t := Release(s, id);
    forall x | x in t.addresses
      ensures IssuedBelow(t.addresses[x], t.next)
    {
      assert IssuedBelow(s.addresses[x], s.next);
    }
  }

  /** Asking again for the same id returns the same address and changes nothing. */
  lemma AllocateIdempotent(s: IpamState, id: string)
    requires Allocate(s, id).Ok?
    ensures Allocate(Allocate(s, id).value.1, id) == Allocate(s, id)
  {
    if id !in s.addresses {
      var n := FirstFree(s.addresses.Values, s.next).value;
      assert Allocate(s, id).value.1.addresses[id] == Address(n);
    }
  }

  /** A valid state never hands out the bridge address. */
  lemma {:induction false} NeverBridge(s: IpamState, id: string)
    requires Valid(s)
    requires id in s.addresses
    ensures s.addresses[id] != BridgeAddress
  {
    var k :| FirstOctet <= k < s.next && s.addresses[id] == Address(k);
    BridgeIsOctetOne(k);
  }

  /** The cursor never moves back: a new id never gets an address whose
      octet is below the cursor, even if that address has been released. */
  lemma {:induction false} NoReuseBelowCursor(s: IpamState, id: string, k: int)
    requires id !in s.addresses && Allocate(s, id).Ok?
    requires k < s.next
    ensures Allocate(s, id).value.0 != Address(k)
    ensures Allocate(s, id).value.1.next > s.next
  {
    var n :| s.next <= n <= LastOctet && Allocate(s, id).value.0 == Address(n)
             && Allocate(s, id).value.1 == IpamState(s.addresses[id := Address(n)], n + 1);
    if Address(n) == Address(k) {
      AddressInjective(n, k);
    }
  }

  /** Once the cursor is past the last octet, no new id can get an address,
      and releasing addresses does not help. */
  lemma ExhaustedForever(s: IpamState, released: string, id: string)
    requires s.next > LastOctet
    requires id !in s.addresses
    ensures Allocate(s, id) == Err(PoolExhausted)
    ensures id != released ==> Allocate(Release(s, released), id) == Err(PoolExhausted)
  {
  }

  /** Release undoes a fresh allocation in the map; only the cursor has moved. */
  lemma {:induction false} ReleaseUndoesAllocate(s: IpamState, id: string)
    requires id !in s.addresses && Allocate(s, id).Ok?
    ensures Release(Allocate(s, id).value.1, id).addresses == s.addresses
    ensures Release(Allocate(s, id).value.1, id).next > s.next
  {
    var t := Allocate(s, id).value.1;
    var n :| s.next <= n <= LastOctet && t == IpamState(s.addresses[id := Address(n)], n + 1);
    assert Release(t, id) == IpamState(t.addresses - {id}, t.next);
    UpdateThenRemove(s.addresses, id, Address(n));
  }

  lemma UpdateThenRemove(m: map<string, string>, k: string, v: string)
    requires k !in m
    ensures m[k := v] - {k} == m
  {
    var r := m[k := v] - {k};
    assert r.Keys == m.Keys;
    assert forall x :: x in r ==> r[x] == m[x];
  }

  /** The sequence of `TestIPAM` from a fresh state: the first container
      gets 10.0.0.2, asking again returns it, and releasing removes it. */
  lemma FirstAllocation(id: string)
    ensures Allocate(Initial, id) == Ok(("10.0.0.2", IpamState(map[id := "10.0.0.2"], 3)))
    ensures Allocate(IpamState(map[id := "10.0.0.2"], 3), id) == Ok(("10.0.0.2", IpamState(map[id := "10.0.0.2"], 3)))
    ensures Release(IpamState(map[id := "10.0.0.2"], 3), id) == IpamState(map[], 3)
  {
    assert Address(2) == "10.0.0.2";
    assert map[id := "10.0.0.2"] - {id} == map[];
  }
}

=== FILE: lifecycle.dfy ===
/** The container records on disk and what `ps`, `stop` and `rm` do to
    them. The containers directory is a sequence of records in listing
    order; the record in `<id>.json` has that id, because the state is
    always saved under its own id. Whether a process is alive (a signal 0
    delivered) is the set `live` of pids for which it succeeds, and whether
    SIGTERM could be delivered is a boolean. */
module Lifecycle {
  import opened Wrappers
  import Text
  import Ipam
  import ContainerIds

  datatype Status = Running | Stopped | Exited

  /** `ContainerState`. The creation time is kept as an opaque number. */
  datatype Container = Container(
    id: string,
    pid: int,
    status: Status,
    createdAt: int,
    command: seq<string>,
    vethHost: string,
    vethPeer: string,
    containerIp: string,
    logFile: string,
    detached: bool,
    cgroupPath: string,
    rootfsPath: string)

  /** The containers directory, one record per state file, in listing order. */
  type Store = seq<Container>

  /** The runtime's persistent state: the containers and the IPAM file. */
  datatype Host = Host(store: Store, ipam: Ipam.IpamState)

  /** No two state files hold the same id, as no two files share a name. */
  predicate DistinctIds(store: Store) {
    forall i, j :: 0 <= i < j < |store| ==> store[i].id != store[j].id
  }

  /** Two stores with the same ids in the same positions. */
  predicate SameIds(a: Store, b: Store) {
    |a| == |b| && forall k :: 0 <= k < |a| ==> a[k].id == b[k].id
  }

  /** The directory listing: `<id>.json` for each record. */
  function Files(store: Store): (names: seq<string>)
    ensures |names| == |store|
    ensures forall k :: 0 <= k < |store| ==> names[k] == store[k].id + ContainerIds.StateSuffix
  {
    seq(|store|, k requires 0 <= k < |store| => store[k].id + ContainerIds.StateSuffix)
  }

  /** Each file of the listing stands for its record's id. */
  lemma FilesIds(store: Store)
    ensures forall k :: 0 <= k < |store| ==> ContainerIds.IdOf(Files(store)[k]) == Some(store[k].id)
  {
    forall k | 0 <= k < |store|
      ensures ContainerIds.IdOf(Files(store)[k]) == Some(store[k].id)
    {
      ContainerIds.IdOfStateFile(store[k].id);
    }
  }

  lemma FilesOfSameIds(a: Store, b: Store)
    requires SameIds(a, b)
    ensures Files(a) == Files(b)
  {
  }

  /** The first record with the given id. */
  function IndexOf(store: Store, id: string): (r: Option<nat>)
    ensures r.Some? ==> r.value < |store| && store[r.value].id == id
                        && forall j :: 0 <= j < r.value ==> store[j].id != id
    ensures r.None? <==> forall k :: 0 <= k < |store| ==> store[k].id != id
    decreases |store|
  {
    if |store| == 0 then None
    else if store[0].id == id then Some(0)
    else
      match IndexOf(store[1..], id)
      case None => None
      case Some(k) => Some(k + 1)
  }

  /** With distinct ids, a record's own position is where its id is found. */
  lemma IndexOfDistinct(store: Store, k: int)
    requires DistinctIds(store) && 0 <= k < |store|
    ensures IndexOf(store, store[k].id) == Some(k)
  {
  }

  lemma {:induction false} StoredIfResolved(store: Store, partial: string)
    requires ContainerIds.Resolve(Files(store), partial).Ok?
    ensures IndexOf(store, ContainerIds.Resolve(Files(store), partial).value).Some?
  {
    var names := Files(store);
    var id := ContainerIds.Resolve(names, partial).value;
    var i :| 0 <= i < |names| && ContainerIds.Matches(names[i], partial) && ContainerIds.IdOf(names[i]).value == id;
    ContainerIds.IdOfStateFile(store[i].id);
    assert store[i].id == id;
  }

  /** `loadContainerState`: resolve a (partial) id against the listing and
      find the record of the file it names. */
  function Locate(store: Store, partial: string): (r: Result<nat, ContainerIds.ResolveError>)
    ensures r.Ok? ==> r.value < |store|
                      && ContainerIds.Resolve(Files(store), partial) == Ok(store[r.value].id)
    ensures r.Err? ==> ContainerIds.Resolve(Files(store), partial) == Err(r.error)
  {
    match ContainerIds.Resolve(Files(store), partial)
    case Err(e) => Err(e)
    case Ok(id) =>
      StoredIfResolved(store, partial);
      Ok(IndexOf(store, id).value)
  }

  /** The record a partial id selects is the one matching it, whichever of
      the stores with these ids it is looked up in. */
  lemma LocateSameIds(a: Store, b: Store, partial: string)
    requires SameIds(a, b)
    ensures Locate(a, partial) == Locate(b, partial)
  {
    FilesOfSameIds(a, b);
    var r := ContainerIds.Resolve(Files(a), partial);
    if r.Ok? {
      assert forall k :: 0 <= k < |a| ==> (a[k].id == r.value <==> b[k].id == r.value);
      IndexOfSameIds(a, b, r.value);
    }
  }

  lemma {:induction false} IndexOfSameIds(a: Store, b: Store, id: string)
    requires SameIds(a, b)
    ensures IndexOf(a, id) == IndexOf(b, id)
    decreases |a|
  {
    if |a| > 0 && a[0].id != id {
      IndexOfSameIds(a[1..], b[1..], id);
    }
  }

  /** `updateContainerStatus`: load the record the id resolves to and save
      it with the new status; when the id does not resolve nothing is
      saved (the error is returned and every caller ignores it). */
  function UpdateStatus(store: Store, id: string, status: Status): (r: Store)
    ensures SameIds(r, store)
    ensures forall k :: 0 <= k < |store| ==> r[k].(status := store[k].status) == store[k]
    ensures forall k :: 0 <= k < |store| && r[k] != store[k] ==>
              Locate(store, id) == Ok(k) && r[k].status == status
    ensures Locate(store, id).Ok? ==> r[Locate(store, id).value].status == status
    ensures Locate(store, id).Err? ==> r == store
  {
    match Locate(store, id)
    case Err(_) => store
    case Ok(k) => store[k := store[k].(status := status)]
  }

  // ---------------------------------------------------------------------
  // `ps`
  // ---------------------------------------------------------------------

  /** The record loads when `ps` asks for it by its full id: no other id
      extends it. */
  predicate Loadable(store: Store, k: int)
    requires 0 <= k < |store|
  {
    ContainerIds.Resolve(Files(store), store[k].id).Ok?
  }

  /** What listing makes of a record it has loaded: a running record whose
      process is gone is marked exited. */
  function Reconciled(c: Container, live: set<int>): (r: Container)
    ensures r.(status := c.status) == c
    ensures r.status == (if c.status == Running && c.pid !in live then Exited else c.status)
  {
    if c.status == Running && c.pid !in live then c.(status := Exited) else c
  }

  /** The line `ps` prints for a record (the creation time is left out). */
  datatype Row = Row(id: string, status: Status, pid: int, ip: string, command: string)

  /** The id column: at most twelve characters. */
  function DisplayId(id: string): (r: string)
    ensures |r| <= 12 && Text.HasPrefix(id, r)
    ensures |id| <= 12 ==> r == id
    ensures |id| > 12 ==> |r| == 12
  {
    Text.Truncate(id, 12)
  }

  /** The command column: commands longer than thirty characters are cut
      to twenty-seven and marked with `...`. */
  function DisplayCommand(command: string): (r: string)
    ensures |r| <= 30
    ensures |command| <= 30 ==> r == command
    ensures |command| > 30 ==> |r| == 30 && Text.HasPrefix(command, r[..27]) && Text.HasSuffix(r, "...")
  {
    if |command| > 30 then command[..27] + "..." else command
  }

  /** The IP column: `-` for a container without an address. */
  function DisplayIp(ip: string): (r: string)
    ensures r != ""
    ensures ip == "" ==> r == "-"
    ensures ip != "" ==> r == ip
  {
    if ip == "" then "-" else ip
  }

  function RowOf(c: Container): Row {
    Row(DisplayId(c.id), c.status, c.pid, DisplayIp(c.containerIp), DisplayCommand(Text.Join(c.command, ' ')))
  }

  /** The rows `ps` prints for the first records of the listing, as an
      independent reference for the loop: one row for each loadable
      record, showing its reconciled status. */
  function Rows(store: Store, n: nat, live: set<int>): (rows: seq<Row>)
    requires n <= |store|
    ensures |rows| <= n
    decreases n
  {
    if n == 0 then []
    else
      var k := n - 1;
      Rows(store, k, live) + if Loadable(store, k) then [RowOf(Reconciled(store[k], live))] else []
  }

  /** `listContainers`: walk the listing, load each state file by its id
      (skipping those that do not load), mark a running record whose
      process is gone as exited, and print a row for it. */
  method List(store: Store, live: set<int>) returns (rows: seq<Row>, after: Store)
    requires DistinctIds(store)
    ensures SameIds(after, store) && DistinctIds(after)
    ensures forall k :: 0 <= k < |store| ==>
              after[k] == if Loadable(store, k) then Reconciled(store[k], live) else store[k]
    ensures rows == Rows(store, |store|, live)
  {
    rows := [];
    after := store;
    var names := Files(store);
    var i := 0;
    while i < |names|
      invariant |names| == |store| && 0 <= i <= |store|
      invariant SameIds(after, store)
      invariant ListedUpTo(store, after, i, live)
      invariant rows == Rows(store, i, live)
      decreases |store| - i
    {
      rows, after := ListOne(store, names, i, live, rows, after);
      i := i + 1;
    }
    assert i == |store|;
    DistinctSameIds(store, after);
  }

  /** One turn of the listing loop: load the `i`-th file's record by its
      id, reconcile it, and add its row. */
  method ListOne(store: Store, names: seq<string>, i: int, live: set<int>, rows: seq<Row>, after: Store)
      returns (rows': seq<Row>, after': Store)
    requires DistinctIds(store) && names == Files(store) && 0 <= i < |store|
    requires SameIds(after, store) && ListedUpTo(store, after, i, live)
    requires rows == Rows(store, i, live)
    ensures SameIds(after', store) && ListedUpTo(store, after', i + 1, live)
    ensures rows' == Rows(store, i + 1, live)
  {
    rows' := rows;
    after' := after;
    FilesIds(store);
    var id := ContainerIds.TrimSuffixId(names[i]);
    assert id == store[i].id;
    LocateOwnId(store, after, i);
    var loaded := Locate(after, id);
    var target := if Loadable(store, i) then Reconciled(store[i], live) else store[i];
    assert after[i] == store[i];
    if loaded.Ok? {
      assert loaded.value == i && Loadable(store, i);
      var state := after[loaded.value];
      if state.status == Running && state.pid !in live {
        state := state.(status := Exited);
        UpdateAt(after, id, Exited, loaded.value);
        after' := UpdateStatus(after, id, Exited);
        assert after' == after[i := target];
      } else {
        assert after == after[i := target];
      }
      assert state == target;
      rows' := rows + [RowOf(state)];
    } else {
      assert after == after[i := target];
    }
    ListedNext(store, after, i, live);
  }

  /** The first `i` records have been listed and the rest not yet touched. */
  predicate ListedUpTo(store: Store, after: Store, i: int, live: set<int>)
    requires |after| == |store| && 0 <= i <= |store|
  {
    && (forall k :: 0 <= k < i ==>
          after[k] == if Loadable(store, k) then Reconciled(store[k], live) else store[k])
    && (forall k :: i <= k < |store| ==> after[k] == store[k])
  }

  lemma ListedNext(store: Store, after: Store, i: int, live: set<int>)
    requires |after| == |store| && 0 <= i < |store| && ListedUpTo(store, after, i, live)
    ensures ListedUpTo(store, after[i := if Loadable(store, i) then Reconciled(store[i], live) else store[i]], i + 1, live)
  {
  }

  /** Updating the status of a located record changes that record alone. */
  lemma UpdateAt(store: Store, id: string, status: Status, k: nat)
    requires Locate(store, id) == Ok(k)
    ensures UpdateStatus(store, id, status) == store[k := store[k].(status := status)]
  {
  }

  lemma DistinctSameIds(a: Store, b: Store)
    requires DistinctIds(a) && SameIds(a, b)
    ensures DistinctIds(b)
  {
  }

  /** While listing, a record's own id finds it, in the listing as it has
      been updated so far, exactly when it is loadable. */
  lemma LocateOwnId(store: Store, after: Store, i: int)
    requires DistinctIds(store) && SameIds(after, store) && 0 <= i < |store|
    ensures Locate(after, store[i].id).Ok? <==> Loadable(store, i)
    ensures Locate(after, store[i].id).Ok? ==> Locate(after, store[i].id) == Ok(i)
  {
    var id := store[i].id;
    LocateSameIds(after, store, id);
    var r := Locate(store, id);
    if r.Ok? {
      FilesIds(store);
      ContainerIds.SelfResolve(Files(store), i);
      assert store[r.value].id == id;
    }
  }

  /** With ids of one length, as generated ids are, every record loads, so
      every running record whose process is gone is marked exited. */
  lemma UniformLoadable(store: Store, len: nat, k: int)
    requires DistinctIds(store) && 0 <= k < |store|
    requires forall j :: 0 <= j < |store| ==> |store[j].id| == len
    ensures Loadable(store, k)
  {
    var names := Files(store);
    FilesIds(store);
    assert ContainerIds.Distinct(names) by {
      forall i, j | 0 <= i < j < |names|
        ensures names[i] != names[j]
      {
        assert ContainerIds.IdOf(names[i]) != ContainerIds.IdOf(names[j]);
      }
    }
    ContainerIds.FullIdResolves(names, len, k);
  }

  /** The shortened id `ps` shows can be typed back to `stop` or `rm` when
      no other record's id starts with it. */
  lemma DisplayIdResolves(store: Store, k: int)
    requires 0 <= k < |store|
    requires forall j :: 0 <= j < |store| && j != k ==> !Text.HasPrefix(store[j].id, DisplayId(store[k].id))
    ensures Locate(store, DisplayId(store[k].id)) == Ok(k) || exists j :: 0 <= j < k && store[j].id == store[k].id
  {
    var names := Files(store);
    var shown := DisplayId(store[k].id);
    FilesIds(store);
    ContainerIds.ResolveUnique(names, shown, k);
  }

  // ---------------------------------------------------------------------
  // `stop`
  // ---------------------------------------------------------------------

  datatype StopError =
    | StopNotLoaded(cause: ContainerIds.ResolveError)   // the id does not resolve
    | SignalFailed                                      // SIGTERM could not be sent

  datatype StopOutcome =
    | NotRunning   // the record was not running: nothing is done
    | FoundExited  // its process was already gone
    | Terminated   // it was signalled and is now stopped

  /** `stopContainer`. A record that is not running is left alone. A
      running record whose process is gone is marked exited; otherwise the
      process is sent SIGTERM (and SIGKILL if it lingers) and the record is
      marked stopped. In both cases the container's address is released.
      When SIGTERM cannot be sent the command exits before changing anything. */
  function Stop(h: Host, partial: string, live: set<int>, termSent: bool): (r: Result<(StopOutcome, Host), StopError>)
    ensures Locate(h.store, partial).Err? ==> r == Err(StopNotLoaded(Locate(h.store, partial).error))
    ensures r == Err(SignalFailed) <==>
              && Locate(h.store, partial).Ok?
              && h.store[Locate(h.store, partial).value].status == Running
              && h.store[Locate(h.store, partial).value].pid in live
              && !termSent
    ensures r.Ok? ==> Locate(h.store, partial).Ok?
    ensures r.Ok? && r.value.0 == NotRunning ==> r.value.1 == h
  {
    match Locate(h.store, partial)
    case Err(e) => Err(StopNotLoaded(e))
    case Ok(k) =>
      var c := h.store[k];
      if c.status != Running then Ok((NotRunning, h))
      else if c.pid !in live then
        Ok((FoundExited, Host(UpdateStatus(h.store, c.id, Exited), Ipam.Release(h.ipam, c.id))))
      else if !termSent then Err(SignalFailed)
      else Ok((Terminated, Host(UpdateStatus(h.store, c.id, Stopped), Ipam.Release(h.ipam, c.id))))
  }

  /** A successful stop of a running record leaves it in a final status:
      exited if its process was already gone, stopped otherwise. No other
      record changes, and the container's address is released. */
  lemma StopFinal(h: Host, partial: string, live: set<int>, termSent: bool)
    requires Stop(h, partial, live, termSent).Ok?
    ensures var k := Locate(h.store, partial).value;
            var c := h.store[k];
            var (outcome, after) := Stop(h, partial, live, termSent).value;
            && SameIds(after.store, h.store)
            && (c.status != Running ==> outcome == NotRunning && after == h)
            && (c.status == Running ==>
                  && after.store[k] == c.(status := if c.pid in live then Stopped else Exited)
                  && (forall j :: 0 <= j < |h.store| && j != k ==> after.store[j] == h.store[j])
                  && after.ipam == Ipam.Release(h.ipam, c.id))
  {
    var k := Locate(h.store, partial).value;
    var c := h.store[k];
    ContainerIds.ResolveFullAfterPartial(Files(h.store), partial);
    assert Locate(h.store, c.id) == Ok(k);
  }

  // ---------------------------------------------------------------------
  // `rm`
  // ---------------------------------------------------------------------

  datatype RemoveError =
    | RemoveNotLoaded(cause: ContainerIds.ResolveError)   // the id does not resolve
    | StillRunning                                        // its process is alive

  /** The listing without the state file of `id`. */
  function DeleteFile(store: Store, id: string): (r: Store)
    ensures |r| <= |store|
    decreases |store|
  {
    if |store| == 0 then []
    else
      var rest := DeleteFile(store[1..], id);
      if store[0].id == id then rest else [store[0]] + rest
  }

  /** Deleting the file of `id` keeps exactly the other records. */
  lemma {:induction false} DeleteFileMembers(store: Store, id: string)
    ensures forall c :: c in DeleteFile(store, id) <==> c in store && c.id != id
    decreases |store|
  {
    if |store| > 0 {
      DeleteFileMembers(store[1..], id);
      assert forall c :: c in store <==> c == store[0] || c in store[1..];
    }
  }

  /** With distinct ids, deleting a record's file removes exactly that record. */
  lemma {:induction false} DeleteFileAt(store: Store, k: int)
    requires DistinctIds(store) && 0 <= k < |store|
    ensures DeleteFile(store, store[k].id) == store[..k] + store[k + 1..]
    decreases |store|
  {
    var id := store[k].id;
    var tail := store[1..];
    if k == 0 {
      forall c | c in tail
        ensures c.id != id
      {
        var j :| 0 <= j < |tail| && tail[j] == c;
        assert c == store[j + 1];
      }
      DeleteFileNone(tail, id);
      assert store[..0] + store[1..] == tail;
    } else {
      assert store[0].id != id;
      assert DeleteFile(store, id) == [store[0]] + DeleteFile(tail, id);
      assert DistinctIds(tail) by {
        forall i, j | 0 <= i < j < |tail|
          ensures tail[i].id != tail[j].id
        {
          assert tail[i] == store[i + 1] && tail[j] == store[j + 1];
        }
      }
      assert tail[k - 1] == store[k];
      DeleteFileAt(tail, k - 1);
      assert store[..k] == [store[0]] + tail[..k - 1];
      assert store[k + 1..] == tail[k..];
    }
  }

  lemma {:induction false} DeleteFileNone(store: Store, id: string)
    requires forall c :: c in store ==> c.id != id
    ensures DeleteFile(store, id) == store
    decreases |store|
  {
    if |store| > 0 {
      assert store[0] in store;
      DeleteFileNone(store[1..], id);
      assert store == [store[0]] + store[1..];
    }
  }

  /** `removeContainer`: a record whose status is running and whose process
      is alive is refused; otherwise its address is released and its state
      file deleted. */
  function Remove(h: Host, partial: string, live: set<int>): (r: Result<Host, RemoveError>)
    ensures Locate(h.store, partial).Err? ==> r == Err(RemoveNotLoaded(Locate(h.store, partial).error))
    ensures r == Err(StillRunning) <==>
              && Locate(h.store, partial).Ok?
              && h.store[Locate(h.store, partial).value].status == Running
              && h.store[Locate(h.store, partial).value].pid in live
    ensures r.Ok? ==> var c := h.store[Locate(h.store, partial).value];
                      && r.value.store == DeleteFile(h.store, c.id)
                      && r.value.ipam == Ipam.Release(h.ipam, c.id)
  {
    match Locate(h.store, partial)
    case Err(e) => Err(RemoveNotLoaded(e))
    case Ok(k) =>
      var c := h.store[k];
      if c.status == Running && c.pid in live then Err(StillRunning)
      else Ok(Host(DeleteFile(h.store, c.id), Ipam.Release(h.ipam, c.id)))
  }

  /** With distinct ids, a successful remove deletes exactly the selected
      record and keeps the ids distinct. */
  lemma RemoveExactly(h: Host, partial: string, live: set<int>)
    requires DistinctIds(h.store) && Remove(h, partial, live).Ok?
    ensures var k := Locate(h.store, partial).value;
            Remove(h, partial, live).value.store == h.store[..k] + h.store[k + 1..]
    ensures DistinctIds(Remove(h, partial, live).value.store)
  {
    var k := Locate(h.store, partial).value;
    DeleteFileAt(h.store, k);
    DistinctWithout(h.store, k);
  }

  /** A successful remove keeps exactly the records of other ids. */
  lemma RemoveKeepsOthers(h: Host, partial: string, live: set<int>)
    requires Remove(h, partial, live).Ok?
    ensures var c := h.store[Locate(h.store, partial).value];
            forall d :: d in Remove(h, partial, live).value.store <==> d in h.store && d.id != c.id
  {
    DeleteFileMembers(h.store, h.store[Locate(h.store, partial).value].id);
  }

  /** Deleting one record's file keeps the ids distinct. */
  lemma DistinctWithout(store: Store, k: int)
    requires DistinctIds(store) && 0 <= k < |store|
    ensures DistinctIds(DeleteFile(store, store[k].id))
  {
    DeleteFileAt(store, k);
    DistinctWithoutAt(store, k);
  }

  /** Leaving out one position keeps the ids distinct. */
  lemma DistinctWithoutAt(store: Store, k: int)
    requires DistinctIds(store) && 0 <= k < |store|
    ensures DistinctIds(store[..k] + store[k + 1..])
  {
    var after := store[..k] + store[k + 1..];
    forall i, j | 0 <= i < j < |after|
      ensures after[i].id != after[j].id
    {
      var i' := if i < k then i else i + 1;
      var j' := if j < k then j else j + 1;
      assert after[i] == store[i'] && after[j] == store[j'];
    }
  }

  /** After a remove the same partial id finds nothing: the record it named
      was the only one it matched. */
  lemma RemoveThenNotFound(h: Host, partial: string, live: set<int>)
    requires Remove(h, partial, live).Ok?
    ensures Locate(Remove(h, partial, live).value.store, partial) == Err(ContainerIds.NotFound(partial))
  {
    var names := Files(h.store);
    var k := Locate(h.store, partial).value;
    var id := h.store[k].id;
    var after := Remove(h, partial, live).value.store;
    RemoveKeepsOthers(h, partial, live);
    FilesIds(h.store);
    FilesIds(after);
    ContainerIds.ResolveAmbiguous(names, partial);
    assert ContainerIds.Matches(names[k], partial);
    forall j | 0 <= j < |after|
      ensures !ContainerIds.Matches(Files(after)[j], partial)
    {
      assert after[j] in after;
      var i :| 0 <= i < |h.store| && h.store[i] == after[j];
      assert i != k;
      assert !ContainerIds.Matches(names[i], partial);
    }
  }

  /** A stopped container can always be removed, whatever is alive now. */
  lemma StopThenRemove(h: Host, partial: string, live: set<int>, termSent: bool, liveLater: set<int>)
    requires Stop(h, partial, live, termSent).Ok?
    ensures Remove(Stop(h, partial, live, termSent).value.1, partial, liveLater).Ok?
  {
    var after := Stop(h, partial, live, termSent).value.1;
    StopFinal(h, partial, live, termSent);
    LocateSameIds(after.store, h.store, partial);
  }

  /** Stopping and removing keep the IPAM state valid. */
  lemma StopKeepsIpamValid(h: Host, partial: string, live: set<int>, termSent: bool)
    requires Ipam.Valid(h.ipam) && Stop(h, partial, live, termSent).Ok?
    ensures Ipam.Valid(Stop(h, partial, live, termSent).value.1.ipam)
  {
    StopFinal(h, partial, live, termSent);
    var k := Locate(h.store, partial).value;
    Ipam.ReleasePreservesValid(h.ipam, h.store[k].id);
  }

  lemma RemoveKeepsIpamValid(h: Host, partial: string, live: set<int>)
    requires Ipam.Valid(h.ipam) && Remove(h, partial, live).Ok?
    ensures Ipam.Valid(Remove(h, partial, live).value.ipam)
  {
    var k := Locate(h.store, partial).value;
    Ipam.ReleasePreservesValid(h.ipam, h.store[k].id);
  }
}

=== FILE: limits.dfy ===
/** The resource-limit codec: conversion of the `--cpu-limit` and
    `--memory-limit` strings into the contents of the cgroup v2 files
    `cpu.max` and `memory.max`. */
module Limits {
  import opened Wrappers
  import Text
  import opened Numerals

  /** The `cpu.max` period, in microseconds. */
  const CpuPeriod: nat := 100000

  /** The period as it appears in `cpu.max`. */
  const PeriodText: string := "100000"

  /** What `cpu.max` holds when the CPU is not limited. */
  const CpuUnlimited: string := "max 100000"

  /** What `memory.max` holds when memory is not limited. */
  const MemoryUnlimited: string := "max"

  datatype LimitError =
    | InvalidFormat   // the number does not parse
    | NotPositive     // the number parses but is zero or negative

  lemma PeriodTextIsPeriod()
    ensures DecimalString(CpuPeriod) == PeriodText
  {
    DecimalStringStep(10, 0);
    DecimalStringStep(100, 0);
    DecimalStringStep(1000, 0);
    DecimalStringStep(10000, 0);
  }

  /** `cpu.max` for a positive core count: the quota is period × cores,
      truncated to whole microseconds. */
  function CpuQuota(cores: Fixed): (q: nat)
    ensures q * Pow10(cores.scale) <= CpuPeriod * cores.mantissa < (q + 1) * Pow10(cores.scale)
  {
    var x := CpuPeriod * cores.mantissa;
    var p := Pow10(cores.scale);
    var q := FloorDiv(x, p);
    assert q * p <= x < (q + 1) * p;
    q
  }

  /** `parseCPULimit`: "" and "max" mean unlimited; otherwise a positive
      decimal core count becomes "<quota> 100000". */
  function ParseCpuLimit(limit: string): (r: Result<string, LimitError>)
    ensures r == Ok(CpuUnlimited) <==> limit == "" || limit == "max"
    ensures r.Ok? ==> exists quota :: r.value == quota + " " + PeriodText
                                      && (quota == "max" || Canonical(quota))
  {
    if limit == "" || limit == "max" then
      assert CpuUnlimited == "max" + " " + PeriodText;
      Ok(CpuUnlimited)
    else
      match ParseFixed(limit)
      case None => Err(InvalidFormat)
      case Some(cores) =>
        if cores.negative || cores.mantissa == 0 then Err(NotPositive)
        else
          PeriodTextIsPeriod();
          var quota := DecimalString(CpuQuota(cores));
          assert (quota + " " + PeriodText)[0] == quota[0];
          Ok(quota + " " + DecimalString(CpuPeriod))
  }

  /** A positive core count is rendered as its truncated quota and the period. */
  lemma CpuOfPositive(limit: string, cores: Fixed)
    requires limit != "" && limit != "max"
    requires ParseFixed(limit) == Some(cores) && !cores.negative && cores.mantissa > 0
    ensures ParseCpuLimit(limit) == Ok(DecimalString(CpuQuota(cores)) + " " + PeriodText)
  {
    PeriodTextIsPeriod();
  }

  /** A whole number of cores n gives quota n × 100000. */
  lemma CpuWholeCores(n: nat)
    requires n >= 1
    ensures ParseCpuLimit(DecimalString(n)) == Ok(DecimalString(n * CpuPeriod) + " " + PeriodText)
  {
    var s := DecimalString(n);
    var cores := Fixed(false, n, 0);
    assert s != "" && s != "max" by {
      NumeralIsNotMax(n, "");
      assert s + "" == s;
    }
    assert ParseFixed(s) == Some(cores) by {
      ParseFixedWhole(n);
    }
    assert CpuQuota(cores) == n * CpuPeriod by {
      assert Pow10(0) == 1;
      FloorDivExact(CpuPeriod * n, 1);
    }
    CpuOfPositive(s, cores);
  }

  /** period × (w + v / 10^k) is a whole number of microseconds when k <= 5. */
  lemma ExactQuota(w: nat, v: nat, k: nat)
    requires k <= 5
    ensures CpuPeriod * (w * Pow10(k) + v) == (w * CpuPeriod + v * Pow10(5 - k)) * Pow10(k)
  {
    Pow10Add(k, 5 - k);
    assert Pow10(5) == CpuPeriod;
    var a := Pow10(k);
    var b := Pow10(5 - k);
    assert a * b == CpuPeriod;
    calc {
      CpuPeriod * (w * a + v);
      (a * b) * (w * a + v);
      w * (a * b) * a + v * b * a;
      (w * CpuPeriod + v * b) * a;
    }
  }

  /** Text that starts with a numeral is neither of the unlimited spellings. */
  lemma NumeralIsNotMax(n: nat, rest: string)
    ensures DecimalString(n) + rest != "" && DecimalString(n) + rest != "max"
  {
    assert (DecimalString(n) + rest)[0] == DecimalString(n)[0];
  }

  /** The quota of `w + v / 10^k` cores, k <= 5, has no fractional microseconds to drop. */
  lemma FractionalQuota(w: nat, v: nat, k: nat)
    requires k <= 5
    ensures CpuQuota(Fixed(false, w * Pow10(k) + v, k)) == w * CpuPeriod + v * Pow10(5 - k)
  {
    ExactQuota(w, v, k);
    FloorDivExact(w * CpuPeriod + v * Pow10(5 - k), Pow10(k));
  }

  lemma PositiveMantissa(w: nat, v: nat, k: nat)
    requires w > 0 || v > 0
    ensures w * Pow10(k) + v > 0
  {
    if w > 0 {
      assert w * Pow10(k) >= w;
    }
  }

  lemma CpuOfPoint(w: nat, f: string, quota: nat)
    requires Numerals.AllDigits(f)
    requires w > 0 || DigitsValue(f) > 0
    requires CpuQuota(PointValue(w, f)) == quota
    ensures ParseCpuLimit(DecimalString(w) + "." + f) == Ok(DecimalString(quota) + " " + PeriodText)
  {
    var s := DecimalString(w) + "." + f;
    var cores := PointValue(w, f);
    assert s != "" && s != "max" by {
      NumeralIsNotMax(w, "." + f);
      assert s == DecimalString(w) + ("." + f);
    }
    ParseFixedPoint(w, f);
    assert !cores.negative && cores.mantissa > 0 by {
      PositiveMantissa(w, DigitsValue(f), |f|);
    }
    CpuOfPositive(s, cores);
  }

  /** A core count with at most five decimals is converted exactly. */
  lemma CpuFractionalCores(w: nat, f: string)
    requires Numerals.AllDigits(f) && |f| <= 5
    requires w > 0 || DigitsValue(f) > 0
    ensures ParseCpuLimit(DecimalString(w) + "." + f)
            == Ok(DecimalString(w * CpuPeriod + DigitsValue(f) * Pow10(5 - |f|)) + " " + PeriodText)
  {
    var quota := w * CpuPeriod + DigitsValue(f) * Pow10(5 - |f|);
    assert CpuQuota(PointValue(w, f)) == quota by {
      FractionalQuota(w, DigitsValue(f), |f|);
    }
    CpuOfPoint(w, f, quota);
  }

  /** A negative core count is refused as not positive: a minus sign
      followed by any unsigned literal that reads as a number. */
  lemma CpuNegative(t: string)
    requires |t| > 0 && t[0] != '+' && t[0] != '-' && ParseFixed(t).Some?
    ensures ParseCpuLimit("-" + t) == Err(NotPositive)
  {
    ParseFixedNegated(t);
    assert ("-" + t)[0] == '-';
  }

  /** "-w.f" is refused as not positive, whatever the digits. */
  lemma CpuNegativePoint(w: nat, f: string)
    requires AllDigits(f)
    ensures ParseCpuLimit("-" + (DecimalString(w) + "." + f)) == Err(NotPositive)
  {
    var t := DecimalString(w) + "." + f;
    ParseFixedPoint(w, f);
    assert t[0] == DecimalString(w)[0];
    CpuNegative(t);
  }

  /** "-n" is refused as not positive, "-0" included. */
  lemma CpuNegativeWhole(n: nat)
    ensures ParseCpuLimit("-" + DecimalString(n)) == Err(NotPositive)
  {
    ParseFixedWhole(n);
    CpuNegative(DecimalString(n));
  }

  /** Zero cores is refused as not positive. */
  lemma CpuZero()
    ensures ParseCpuLimit("0") == Err(NotPositive)
  {
    assert DecimalString(0) == "0";
    ParseFixedWhole(0);
  }

  /** Zero cores written with zero decimals ("0.0", "0.000") is refused as
      not positive too. */
  lemma CpuZeroPoint(f: string)
    requires AllDigits(f) && DigitsValue(f) == 0
    ensures ParseCpuLimit("0." + f) == Err(NotPositive)
  {
    var s := "0." + f;
    ZeroPointText(f);
    assert ParseFixed(s).Some? && ParseFixed(s).value.mantissa == 0 by {
      ParseFixedDigits("", "0", f);
    }
    CpuOfZero(s);
  }

  /** "0." + f is the literal with whole part "0" and fraction f, and
      "0" + f has the value of f. */
  lemma ZeroPointText(f: string)
    requires AllDigits(f) && DigitsValue(f) == 0
    ensures "" + "0" + "." + f == "0." + f
    ensures "0." + f != "" && "0." + f != "max"
    ensures AllDigits("0" + f) && DigitsValue("0" + f) == 0
  {
    assert ("0." + f)[1] == '.';
    assert DigitsValue("0") == 0;
    DigitsValueConcat("0", f);
  }

  /** Any literal that reads as zero cores, with or without decimals, is
      refused as not positive. */
  lemma CpuOfZero(limit: string)
    requires limit != "" && limit != "max"
    requires ParseFixed(limit).Some? && ParseFixed(limit).value.mantissa == 0
    ensures ParseCpuLimit(limit) == Err(NotPositive)
  {
  }

  /** Text with no digit at all (other than the two spellings of unlimited)
      is refused as malformed. */
  lemma CpuNoDigit(limit: string)
    requires limit != "" && limit != "max"
    requires forall k :: 0 <= k < |limit| ==> !IsDigit(limit[k])
    ensures ParseCpuLimit(limit) == Err(InvalidFormat)
  {
    ParseFixedNoDigit(limit);
  }

  /** A core count with a second `.` is refused as malformed. */
  lemma CpuTwoDots(limit: string, i: nat, j: nat)
    requires i < j < |limit| && limit[i] == '.' && limit[j] == '.'
    ensures ParseCpuLimit(limit) == Err(InvalidFormat)
  {
    ParseFixedTwoDots(limit, i, j);
  }

  /** What `%d` prints for the smallest `int64`. */
  const MinInt64Text: string := "-9223372036854775808"

  /** The quota as the code writes it: `int64(...)` of the product, printed
      with `%d`. On amd64 a product beyond `int64` converts to the smallest
      `int64`. */
  function QuotaTextAsWritten(q: nat): string {
    if q <= MaxInt64 then DecimalString(q) else MinInt64Text
  }

  /** `parseCPULimit` with the conversion as written. */
  function ParseCpuLimitAsWritten(limit: string): (r: Result<string, LimitError>)
    ensures r.Err? <==> ParseCpuLimit(limit).Err?
    ensures r == Ok(CpuUnlimited) <==> limit == "" || limit == "max"
  {
    if limit == "" || limit == "max" then Ok(CpuUnlimited)
    else
      match ParseFixed(limit)
      case None => Err(InvalidFormat)
      case Some(cores) =>
        if cores.negative || cores.mantissa == 0 then Err(NotPositive)
        else
          var quota := QuotaTextAsWritten(CpuQuota(cores));
          assert quota[0] != 'm';
          assert (quota + " " + PeriodText)[0] == quota[0];
          Ok(quota + " " + PeriodText)
  }

  /** The code as written and the exact model agree whenever the quota fits in `int64`. */
  lemma CpuAsWrittenAgreesWithinInt64(limit: string, cores: Fixed)
    requires limit != "" && limit != "max"
    requires ParseFixed(limit) == Some(cores) && !cores.negative && cores.mantissa > 0
    requires CpuQuota(cores) <= MaxInt64
    ensures ParseCpuLimitAsWritten(limit) == ParseCpuLimit(limit)
  {
    CpuOfPositive(limit, cores);
  }

  /** From 92233720368548 cores on, period × cores exceeds `int64`; the
      code as written then writes the smallest `int64`, a negative quota,
      where the exact quota is n × 100000. */
  lemma CpuOverflowAsWritten(n: nat)
    requires n * CpuPeriod > MaxInt64
    ensures ParseCpuLimitAsWritten(DecimalString(n)) == Ok(MinInt64Text + " " + PeriodText)
    ensures ParseCpuLimitAsWritten(DecimalString(n)).value[0] == '-'
    ensures ParseCpuLimit(DecimalString(n)) == Ok(DecimalString(n * CpuPeriod) + " " + PeriodText)
  {
    CpuWholeCores(n);
    var s := DecimalString(n);
    var cores := Fixed(false, n, 0);
    assert s != "" && s != "max" by {
      NumeralIsNotMax(n, "");
      assert s + "" == s;
    }
    assert ParseFixed(s) == Some(cores) by {
      ParseFixedWhole(n);
    }
    assert CpuQuota(cores) == n * CpuPeriod by {
      assert Pow10(0) == 1;
      FloorDivExact(CpuPeriod * n, 1);
    }
    assert (MinInt64Text + " " + PeriodText)[0] == '-';
  }

  /** Any sign, digits, a `.` and more digits: a negative or zero count is
      refused as not positive, and any other gets its rounded-down quota.
      This covers ".5", "+2.", "02.50" and the like. */
  lemma CpuOfDigits(sign: string, w: string, f: string)
    requires IsSign(sign) && AllDigits(w) && AllDigits(f) && |w| + |f| >= 1
    ensures ParseCpuLimit(sign + w + "." + f)
            == if sign == "-" || DigitsValue(w + f) == 0 then Err(NotPositive)
               else Ok(DecimalString(CpuQuota(Fixed(false, DigitsValue(w + f), |f|))) + " " + PeriodText)
  {
    var s := sign + w + "." + f;
    ParseFixedDigits(sign, w, f);
    assert s != "" && s != "max" by {
      assert s[|sign| + |w|] == '.';
    }
    if !(sign == "-" || DigitsValue(w + f) == 0) {
      CpuOfPositive(s, Fixed(false, DigitsValue(w + f), |f|));
    }
  }

  /** Any sign and a digit string, leading zeros included: a negative or
      zero count is refused as not positive, and any other n gets quota
      n × 100000. */
  lemma CpuOfDigitsWhole(sign: string, w: string)
    requires IsSign(sign) && |w| >= 1 && AllDigits(w)
    ensures ParseCpuLimit(sign + w)
            == if sign == "-" || DigitsValue(w) == 0 then Err(NotPositive)
               else Ok(DecimalString(DigitsValue(w) * CpuPeriod) + " " + PeriodText)
  {
    var s := sign + w;
    var cores := Fixed(false, DigitsValue(w), 0);
    ParseFixedDigitsWhole(sign, w);
    assert s != "" && s != "max" by {
      assert IsDigit(s[|sign|]);
    }
    if !(sign == "-" || DigitsValue(w) == 0) {
      assert CpuQuota(cores) == DigitsValue(w) * CpuPeriod by {
        assert Pow10(0) == 1;
        FloorDivExact(CpuPeriod * DigitsValue(w), 1);
      }
      CpuOfPositive(s, cores);
    }
  }

  /** Memory request after parsing, before rendering. */
  datatype MemoryRequest =
    | NoMemoryLimit
    | MemoryQuantity(value: int, multiplier: nat)

  /** Multiplier for an (upper-case) unit suffix. */
  function UnitMultiplier(unit: char): nat {
    match unit
    case 'K' => 1024
    case 'M' => 1024 * 1024
    case 'G' => 1024 * 1024 * 1024
    case _ => 1
  }

  predicate IsMultiplier(m: nat) {
    m == 1 || m == 1024 || m == 1024 * 1024 || m == 1024 * 1024 * 1024
  }

  /** Removes at most one trailing K, M or G (checked in that order) and
      returns what is left with the matching multiplier. */
  function SplitUnit(s: string): (r: (string, nat))
    ensures r.1 == 1 ==> r.0 == s
    ensures r.1 != 1 ==> |s| >= 1 && r.0 == s[..|s| - 1] && r.1 == UnitMultiplier(s[|s| - 1])
  {
    if Text.HasSuffix(s, "K") then (Text.TrimSuffix(s, "K"), 1024)
    else if Text.HasSuffix(s, "M") then (Text.TrimSuffix(s, "M"), 1024 * 1024)
    else if Text.HasSuffix(s, "G") then (Text.TrimSuffix(s, "G"), 1024 * 1024 * 1024)
    else (s, 1)
  }

  /** The number and unit of a memory limit: "" and "max" mean no limit;
      otherwise the trimmed, upper-cased text must be a positive `int64`
      with an optional K/M/G suffix. */
  function ParseMemoryRequest(limit: string): (r: Result<MemoryRequest, LimitError>)
    ensures r == Ok(NoMemoryLimit) <==> limit == "" || limit == "max"
    ensures r.Ok? && r.value.MemoryQuantity? ==>
              && 0 < r.value.value <= MaxInt64
              && IsMultiplier(r.value.multiplier)
  {
    if limit == "" || limit == "max" then Ok(NoMemoryLimit)
    else
      var normal := Text.ToUpper(Text.TrimSpace(limit));
      var (number, multiplier) := SplitUnit(normal);
      match ParseInt64(number)
      case None => Err(InvalidFormat)
      case Some(v) => if v <= 0 then Err(NotPositive) else Ok(MemoryQuantity(v, multiplier))
  }

  /** The number part of a memory limit: the text trimmed of white space,
      upper-cased, and stripped of one K, M or G suffix. */
  function MemoryNumber(limit: string): string {
    SplitUnit(Text.ToUpper(Text.TrimSpace(limit))).0
  }

  /** `parseMemoryLimit` with the byte count computed exactly: "max" for no
      limit, otherwise the canonical decimal numeral of a positive number of
      bytes. */
  function ParseMemoryLimit(limit: string): (r: Result<string, LimitError>)
    ensures r == Ok(MemoryUnlimited) <==> limit == "" || limit == "max"
    ensures r.Ok? && r.value != MemoryUnlimited ==> Canonical(r.value) && DigitsValue(r.value) > 0
    ensures limit != "" && limit != "max" ==>
              (r == Err(InvalidFormat) <==> ParseInt64(MemoryNumber(limit)).None?)
    ensures limit != "" && limit != "max" ==>
              (r == Err(NotPositive) <==> ParseInt64(MemoryNumber(limit)).Some? && ParseInt64(MemoryNumber(limit)).value <= 0)
  {
    var req := ParseMemoryRequest(limit);
    if req.Err? then Err(req.error)
    else if req.value.NoMemoryLimit? then Ok(MemoryUnlimited)
    else
      var bytes := DecimalString(ByteCount(req.value));
      assert Numerals.IsDigit(bytes[0]);
      Ok(bytes)
  }

  /** The number of bytes a sized request stands for. */
  function ByteCount(q: MemoryRequest): (n: nat)
    requires q.MemoryQuantity? && q.value > 0 && IsMultiplier(q.multiplier)
    ensures n > 0
    ensures n == q.value * q.multiplier
  {
    var v: nat := q.value;
    assert v * q.multiplier >= v;
    v * q.multiplier
  }

  /** `parseMemoryLimit` exactly as written: `value * multiplier` is an
      `int64` product and wraps around on overflow. */
  function ParseMemoryLimitAsWritten(limit: string): (r: Result<string, LimitError>)
    ensures r.Err? <==> ParseMemoryRequest(limit).Err?
    ensures r == Ok(MemoryUnlimited) <==> limit == "" || limit == "max"
  {
    match ParseMemoryRequest(limit)
    case Err(e) => Err(e)
    case Ok(NoMemoryLimit) => Ok(MemoryUnlimited)
    case Ok(MemoryQuantity(v, m)) =>
      var bytes := FormatInt(Wrap64(ByteCount(MemoryQuantity(v, m))));
      assert bytes[0] != 'm' by {
        if Wrap64(ByteCount(MemoryQuantity(v, m))) >= 0 {
          assert Numerals.IsDigit(bytes[0]);
        }
      }
      Ok(bytes)
  }

  /** The code as written and the exact model agree whenever the byte count fits in `int64`. */
  lemma AsWrittenAgreesWithinInt64(limit: string)
    requires ParseMemoryRequest(limit).Ok? && ParseMemoryRequest(limit).value.MemoryQuantity?
    requires InInt64(ParseMemoryRequest(limit).value.value * ParseMemoryRequest(limit).value.multiplier)
    ensures ParseMemoryLimitAsWritten(limit) == ParseMemoryLimit(limit)
  {
  }

  /** A number of bytes, kilobytes, megabytes or gigabytes, as the
      user writes it ("512", "256K", "512m", "-1M"). */
  function MemoryText(i: int, unit: string): string {
    FormatInt(i) + unit
  }

  predicate IsUnitSuffix(unit: string) {
    unit in ["", "K", "M", "G", "k", "m", "g"]
  }

  function SuffixMultiplier(unit: string): nat {
    if unit == "" then 1 else UnitMultiplier(Text.UpperChar(unit[0]))
  }

  /** The unit suffix as the code sees it after upper-casing. */
  function UpperUnit(unit: string): string {
    if unit == "" then "" else [Text.UpperChar(unit[0])]
  }

  /** Every character of a formatted integer is a sign or a digit. */
  lemma FormatIntChars(i: int)
    ensures forall k :: 0 <= k < |FormatInt(i)| ==> FormatInt(i)[k] == '-' || Numerals.IsDigit(FormatInt(i)[k])
    ensures Numerals.IsDigit(FormatInt(i)[|FormatInt(i)| - 1])
  {
    if i < 0 {
      var d := DecimalString(-i);
      assert forall k :: 1 <= k < |FormatInt(i)| ==> FormatInt(i)[k] == d[k - 1];
    }
  }

  lemma MemoryTextTrimmed(i: int, unit: string)
    requires IsUnitSuffix(unit)
    ensures Text.Trimmed(MemoryText(i, unit))
  {
    FormatIntChars(i);
    var d := FormatInt(i);
    var s := d + unit;
    assert s[0] == d[0];
    assert s[|s| - 1] == (if unit == "" then d[|d| - 1] else unit[0]);
  }

  lemma NumeralUpper(i: int)
    ensures Text.ToUpper(FormatInt(i)) == FormatInt(i)
  {
    FormatIntChars(i);
    var d := FormatInt(i);
    assert forall k :: 0 <= k < |d| ==> Text.UpperChar(d[k]) == d[k];
  }

  lemma NormalizeMemoryText(i: int, unit: string)
    requires IsUnitSuffix(unit)
    ensures Text.ToUpper(Text.TrimSpace(MemoryText(i, unit))) == FormatInt(i) + UpperUnit(unit)
  {
    MemoryTextTrimmed(i, unit);
    Text.TrimSpaceOfTrimmed(MemoryText(i, unit));
    Text.ToUpperConcat(FormatInt(i), unit);
    NumeralUpper(i);
    assert Text.ToUpper(unit) == UpperUnit(unit);
  }

  lemma SplitUnitOfNumeral(i: int, unit: string)
    requires IsUnitSuffix(unit)
    ensures SplitUnit(FormatInt(i) + UpperUnit(unit)) == (FormatInt(i), SuffixMultiplier(unit))
  {
    FormatIntChars(i);
    var d := FormatInt(i);
    if unit == "" {
      assert d + UpperUnit(unit) == d;
      SplitUnitOfDigits(d);
    } else {
      SplitUnitOfLetter(d, Text.UpperChar(unit[0]));
    }
  }

  /** Text ending in a digit has no unit. */
  lemma SplitUnitOfDigits(d: string)
    requires |d| >= 1 && Numerals.IsDigit(d[|d| - 1])
    ensures SplitUnit(d) == (d, 1)
  {
    assert !Text.HasSuffix(d, "K") && !Text.HasSuffix(d, "M") && !Text.HasSuffix(d, "G") by {
      assert d[|d| - 1..] == [d[|d| - 1]];
    }
  }

  /** A unit letter after a digit is split off with its multiplier. */
  lemma SplitUnitOfLetter(d: string, c: char)
    requires |d| >= 1 && Numerals.IsDigit(d[|d| - 1])
    requires c == 'K' || c == 'M' || c == 'G'
    ensures SplitUnit(d + [c]) == (d, UnitMultiplier(c))
  {
    var s := d + [c];
    Text.TrimSuffixOfConcat(d, [c]);
    assert s[|s| - 1..] == [c];
    if c == 'K' {
      assert [c] == "K";
    } else if c == 'M' {
      assert [c] == "M";
      assert !Text.HasSuffix(s, "K");
    } else {
      assert [c] == "G";
      assert !Text.HasSuffix(s, "K") && !Text.HasSuffix(s, "M");
    }
  }

  /** Text that starts with a formatted integer is neither of the unlimited spellings. */
  lemma FormattedIsNotMax(i: int, rest: string)
    ensures FormatInt(i) + rest != "" && FormatInt(i) + rest != "max"
  {
    FormatIntChars(i);
    assert (FormatInt(i) + rest)[0] == FormatInt(i)[0];
  }

  /** An `int64` written with a unit suffix, in either case, reads back as
      that number and that unit's multiplier when it is positive, and is
      rejected as not positive otherwise. */
  lemma MemoryRequestOfText(i: int, unit: string)
    requires InInt64(i) && IsUnitSuffix(unit)
    ensures ParseMemoryRequest(MemoryText(i, unit))
            == if i <= 0 then Err(NotPositive) else Ok(MemoryQuantity(i, SuffixMultiplier(unit)))
  {
    FormattedIsNotMax(i, unit);
    NumberAndUnit(i, unit);
    ParseFormatInt(i);
  }

  /** After trimming, upper-casing and removing the unit, what is left is the numeral. */
  lemma NumberAndUnit(i: int, unit: string)
    requires IsUnitSuffix(unit)
    ensures SplitUnit(Text.ToUpper(Text.TrimSpace(MemoryText(i, unit)))) == (FormatInt(i), SuffixMultiplier(unit))
  {
    NormalizeMemoryText(i, unit);
    SplitUnitOfNumeral(i, unit);
  }

  /** A positive quantity becomes that many bytes in `memory.max`. */
  lemma MemoryRoundTrip(n: nat, unit: string)
    requires 1 <= n <= MaxInt64 && IsUnitSuffix(unit)
    ensures ParseMemoryLimit(MemoryText(n, unit)) == Ok(DecimalString(n * SuffixMultiplier(unit)))
  {
    MemoryRequestOfText(n, unit);
  }

  /** A zero or negative quantity is refused, whatever its unit. */
  lemma MemoryNotPositive(i: int, unit: string)
    requires MinInt64 <= i <= 0 && IsUnitSuffix(unit)
    ensures ParseMemoryLimit(MemoryText(i, unit)) == Err(NotPositive)
  {
    MemoryRequestOfText(i, unit);
  }

  /** White space around a memory limit changes nothing. */
  lemma MemoryPadded(a: string, t: string, b: string)
    requires Text.NoneButSpace(a) && Text.NoneButSpace(b)
    requires |t| >= 1 && Text.Trimmed(t) && t != "max"
    ensures ParseMemoryLimit(a + t + b) == ParseMemoryLimit(t)
  {
    var s := a + t + b;
    Text.TrimSpacePadded(a, t, b);
    Text.TrimSpaceOfTrimmed(t);
    assert s != "" && s != "max" by {
      if |a| > 0 {
        assert s[0] == a[0];
      } else if |b| > 0 {
        assert s[|s| - 1] == b[|b| - 1];
      } else {
        assert s == t;
      }
    }
  }

  /** A sign followed by digits: every character is a sign or a digit, and the last is a digit. */
  predicate SignedNumeral(n: string) {
    && |n| >= 1
    && (forall k :: 0 <= k < |n| ==> n[k] == '+' || n[k] == '-' || Numerals.IsDigit(n[k]))
    && Numerals.IsDigit(n[|n| - 1])
  }

  lemma SignedNumeralOf(sign: string, d: string)
    requires IsSign(sign) && |d| >= 1 && AllDigits(d)
    ensures SignedNumeral(sign + d)
  {
    var n := sign + d;
    assert forall k :: |sign| <= k < |n| ==> n[k] == d[k - |sign|];
  }

  /** A signed numeral with a unit has no white space at either end. */
  lemma SignedTextTrimmed(n: string, unit: string)
    requires SignedNumeral(n) && IsUnitSuffix(unit)
    ensures Text.Trimmed(n + unit)
  {
    var s := n + unit;
    assert s[0] == n[0];
    assert s[|s| - 1] == (if unit == "" then n[|n| - 1] else unit[0]);
  }

  /** Upper-casing a signed numeral with a unit upper-cases the unit alone. */
  lemma SignedTextUpper(n: string, unit: string)
    requires SignedNumeral(n) && IsUnitSuffix(unit)
    ensures Text.ToUpper(n + unit) == n + UpperUnit(unit)
  {
    Text.ToUpperConcat(n, unit);
    assert Text.ToUpper(n) == n by {
      assert forall k :: 0 <= k < |n| ==> Text.UpperChar(n[k]) == n[k];
    }
    assert Text.ToUpper(unit) == UpperUnit(unit);
  }

  /** After trimming, upper-casing and removing the unit, a signed numeral
      with a unit is the numeral. */
  lemma NumberOfSignedText(n: string, unit: string)
    requires SignedNumeral(n) && IsUnitSuffix(unit)
    ensures SplitUnit(Text.ToUpper(Text.TrimSpace(n + unit))) == (n, SuffixMultiplier(unit))
  {
    assert Text.TrimSpace(n + unit) == n + unit by {
      SignedTextTrimmed(n, unit);
      Text.TrimSpaceOfTrimmed(n + unit);
    }
    SignedTextUpper(n, unit);
    if unit == "" {
      assert n + UpperUnit(unit) == n;
      SplitUnitOfDigits(n);
    } else {
      SplitUnitOfLetter(n, Text.UpperChar(unit[0]));
    }
  }

  /** Any sign and digit string with a unit, in either case, leading zeros
      included ("+512M", "0512m"): refused as malformed when the number does
      not fit in `int64`, as not positive when it is zero or negative, and
      otherwise the exact number of bytes. */
  lemma MemoryOfDigits(sign: string, d: string, unit: string)
    requires IsSign(sign) && |d| >= 1 && AllDigits(d) && IsUnitSuffix(unit)
    ensures ParseMemoryLimit(sign + d + unit)
            == var v := SignedValue(sign, d);
               if !InInt64(v) then Err(InvalidFormat)
               else if v <= 0 then Err(NotPositive)
               else Ok(DecimalString(v * SuffixMultiplier(unit)))
  {
    var n := sign + d;
    var s := n + unit;
    SignedNumeralOf(sign, d);
    assert s != "" && s != "max" by {
      assert s[0] == n[0];
    }
    NumberOfSignedText(n, unit);
    ParseInt64Digits(sign, d);
  }

  /** Whenever the byte count exceeds `int64`, the code as written writes a
      different limit from the exact one: the wrapped product is an `int64`,
      the exact one is not. */
  lemma AsWrittenDiverges(n: nat, unit: string)
    requires 1 <= n <= MaxInt64 && IsUnitSuffix(unit)
    requires n * SuffixMultiplier(unit) > MaxInt64
    ensures ParseMemoryLimitAsWritten(MemoryText(n, unit)) != ParseMemoryLimit(MemoryText(n, unit))
  {
    MemoryRequestOfText(n, unit);
    var exact := n * SuffixMultiplier(unit);
    var q := MemoryQuantity(n, SuffixMultiplier(unit));
    assert ByteCount(q) == exact;
    if FormatInt(Wrap64(exact)) == DecimalString(exact) {
      FormatIntInjective(Wrap64(exact), exact);
      assert false;
    }
  }

  /** The smallest overflow: 2^33 gigabytes is 2^63 bytes, one more than
      `int64` holds, and the code as written wraps it to -2^63, a negative
      memory limit. */
  lemma MemoryOverflowAsWritten(n: nat)
    requires n == 0x2_0000_0000
    ensures n * SuffixMultiplier("G") == MaxInt64 + 1
    ensures ParseMemoryLimitAsWritten(MemoryText(n, "G")) == Ok(FormatInt(-(n * SuffixMultiplier("G"))))
    ensures ParseMemoryLimitAsWritten(MemoryText(n, "G")).value[0] == '-'
    ensures ParseMemoryLimit(MemoryText(n, "G")) == Ok(DecimalString(n * SuffixMultiplier("G")))
  {
    assert ParseMemoryLimit(MemoryText(n, "G")) == Ok(DecimalString(n * SuffixMultiplier("G"))) by {
      MemoryRoundTrip(n, "G");
    }
    var m := SuffixMultiplier("G");
    var b := n * m;
    var q := MemoryQuantity(n, m);
    assert b == MaxInt64 + 1 && ParseMemoryRequest(MemoryText(n, "G")) == Ok(q) by {
      OverflowRequest(n);
    }
    assert ByteCount(q) == b;
    assert Wrap64(b) == -b by {
      Wrap64OneTurn(b);
    }
  }

  /** The request 2^33 gigabytes parses, to 2^63 bytes. */
  lemma OverflowRequest(n: nat)
    requires n == 0x2_0000_0000
    ensures n * SuffixMultiplier("G") == MaxInt64 + 1
    ensures ParseMemoryRequest(MemoryText(n, "G")) == Ok(MemoryQuantity(n, SuffixMultiplier("G")))
  {
    var m := SuffixMultiplier("G");
    assert m == 1073741824;
    MemoryRequestOfText(n, "G");
  }

  /** The rows of `TestMemoryLimitParsing`, and `512m` reading like `512M`. */
  lemma MemoryTableTests()
    ensures ParseMemoryLimit("512M") == Ok("536870912") && ParseMemoryLimit("512m") == Ok("536870912")
    ensures ParseMemoryLimit("1G") == Ok("1073741824")
    ensures ParseMemoryLimit("256K") == Ok("262144")
    ensures ParseMemoryLimit("max") == Ok("max") && ParseMemoryLimit("") == Ok("max")
    ensures ParseMemoryLimit("-1M") == Err(NotPositive)
    ensures ParseMemoryLimit("0") == Err(NotPositive)
    ensures ParseMemoryLimit("invalid") == Err(InvalidFormat)
  {
    FiveHundredTwelveMegabytes();
    OneGigabyte();
    TwoHundredFiftySixKilobytes();
    NonPositiveMemoryRows();
    InvalidMemory();
  }

  lemma MultiplierValues()
    ensures SuffixMultiplier("K") == 1024
    ensures SuffixMultiplier("M") == 1048576 && SuffixMultiplier("m") == 1048576
    ensures SuffixMultiplier("G") == 1073741824
  {
  }

  lemma FiveHundredTwelveMegabytes()
    ensures ParseMemoryLimit("512M") == Ok("536870912") && ParseMemoryLimit("512m") == Ok("536870912")
  {
    MultiplierValues();
    Numeral512();
    Numeral536870912();
    assert MemoryText(512, "M") == "512M";
    assert MemoryText(512, "m") == "512m";
    MemoryRoundTrip(512, "M");
    MemoryRoundTrip(512, "m");
  }

  lemma OneGigabyte()
    ensures ParseMemoryLimit("1G") == Ok("1073741824")
  {
    MultiplierValues();
    Numeral1073741824();
    assert MemoryText(1, "G") == "1G";
    MemoryRoundTrip(1, "G");
  }

  lemma TwoHundredFiftySixKilobytes()
    ensures ParseMemoryLimit("256K") == Ok("262144")
  {
    MultiplierValues();
    Numeral256();
    Numeral262144();
    assert MemoryText(256, "K") == "256K";
    MemoryRoundTrip(256, "K");
  }

  lemma Numeral512() ensures DecimalString(512) == "512" {
    DecimalStringStep(5, 1); DecimalStringStep(51, 2);
  }

  lemma Numeral256() ensures DecimalString(256) == "256" {
    DecimalStringStep(2, 5); DecimalStringStep(25, 6);
  }

  lemma Numeral536870912() ensures DecimalString(536870912) == "536870912" {
    DecimalStringStep(5, 3); DecimalStringStep(53, 6); DecimalStringStep(536, 8);
    DecimalStringStep(5368, 7); DecimalStringStep(53687, 0); DecimalStringStep(536870, 9);
    DecimalStringStep(5368709, 1); DecimalStringStep(53687091, 2);
  }

  lemma Numeral1073741824() ensures DecimalString(1073741824) == "1073741824" {
    DecimalStringStep(1, 0); DecimalStringStep(10, 7); DecimalStringStep(107, 3);
    DecimalStringStep(1073, 7); DecimalStringStep(10737, 4); DecimalStringStep(107374, 1);
    DecimalStringStep(1073741, 8); DecimalStringStep(10737418, 2); DecimalStringStep(107374182, 4);
  }

  lemma Numeral262144() ensures DecimalString(262144) == "262144" {
    DecimalStringStep(2, 6); DecimalStringStep(26, 2); DecimalStringStep(262, 1);
    DecimalStringStep(2621, 4); DecimalStringStep(26214, 4);
  }

  lemma Numeral200000() ensures DecimalString(200000) == "200000" {
    DecimalStringStep(2, 0); DecimalStringStep(20, 0); DecimalStringStep(200, 0);
    DecimalStringStep(2000, 0); DecimalStringStep(20000, 0);
  }

  lemma Numeral50000() ensures DecimalString(50000) == "50000" {
    DecimalStringStep(5, 0); DecimalStringStep(50, 0); DecimalStringStep(500, 0); DecimalStringStep(5000, 0);
  }

  lemma NonPositiveMemoryRows()
    ensures ParseMemoryLimit("-1M") == Err(NotPositive)
    ensures ParseMemoryLimit("0") == Err(NotPositive)
  {
    assert MemoryText(-1, "M") == "-1M";
    assert MemoryText(0, "") == "0";
    MemoryNotPositive(-1, "M");
    MemoryNotPositive(0, "");
  }

  /** A fraction of a unit is not a memory size: "1.5G" is refused as
      malformed. */
  lemma FractionalMemory()
    ensures ParseMemoryLimit("1.5G") == Err(InvalidFormat)
  {
    assert Text.TrimSpace("1.5G") == "1.5G" by {
      Text.TrimSpaceOfTrimmed("1.5G");
    }
    assert Text.ToUpper("1.5G") == "1.5G";
    assert SplitUnit("1.5G").0 == "1.5" by {
      assert "1.5G" == "1.5" + ['G'];
      SplitUnitOfLetter("1.5", 'G');
    }
    assert ParseInt64("1.5") == None by {
      assert !Numerals.IsDigit("1.5"[1]);
    }
  }

  /** Only the one-letter units are known: "12KB" is refused as malformed. */
  lemma TwoLetterUnitMemory()
    ensures ParseMemoryLimit("12KB") == Err(InvalidFormat)
  {
    Text.TrimSpaceOfTrimmed("12KB");
    assert Text.ToUpper("12KB") == "12KB";
    assert SplitUnit("12KB").0 == "12KB";
    assert !Numerals.IsDigit("12KB"[2]);
    assert ParseInt64("12KB") == None;
  }

  lemma InvalidMemory()
    ensures ParseMemoryLimit("invalid") == Err(InvalidFormat)
  {
    Text.TrimSpaceOfTrimmed("invalid");
    assert Text.ToUpper("invalid") == "INVALID";
    assert SplitUnit("INVALID") == ("INVALID", 1);
    assert !Numerals.IsDigit("INVALID"[0]);
    assert ParseInt64("INVALID") == None;
  }

  /** The rows of `TestCPULimitParsing`. */
  lemma CpuTableTests()
    ensures ParseCpuLimit("1") == Ok("100000 100000")
    ensures ParseCpuLimit("0.5") == Ok("50000 100000")
    ensures ParseCpuLimit("2") == Ok("200000 100000")
    ensures ParseCpuLimit("max") == Ok("max 100000") && ParseCpuLimit("") == Ok("max 100000")
    ensures ParseCpuLimit("-1") == Err(NotPositive)
    ensures ParseCpuLimit("invalid") == Err(InvalidFormat)
  {
    WholeCpuRows();
    HalfCpuRow();
    RejectedCpuRows();
  }

  lemma WholeCpuRows()
    ensures ParseCpuLimit("1") == Ok("100000 100000")
    ensures ParseCpuLimit("2") == Ok("200000 100000")
  {
    OneCpuRow();
    TwoCpuRow();
  }

  lemma OneCpuRow()
    ensures ParseCpuLimit("1") == Ok("100000 100000")
  {
    PeriodTextIsPeriod();
    assert DecimalString(1) == "1";
    assert DecimalString(1 * CpuPeriod) == PeriodText;
    assert PeriodText + " " + PeriodText == "100000 100000";
    CpuWholeCores(1);
  }

  lemma TwoCpuRow()
    ensures ParseCpuLimit("2") == Ok("200000 100000")
  {
    Numeral200000();
    assert DecimalString(2) == "2";
    assert DecimalString(2 * CpuPeriod) + " " + PeriodText == "200000 100000";
    CpuWholeCores(2);
  }

  lemma HalfCpuRow()
    ensures ParseCpuLimit("0.5") == Ok("50000 100000")
  {
    Numeral50000();
    assert Pow10(4) == 10000;
    assert DecimalString(0) + "." + "5" == "0.5";
    assert DigitsValue("5") == 5;
    assert DecimalString(0 * CpuPeriod + 5 * Pow10(4)) + " " + PeriodText == "50000 100000";
    CpuFractionalCores(0, "5");
  }

  lemma RejectedCpuRows()
    ensures ParseCpuLimit("-1") == Err(NotPositive)
    ensures ParseCpuLimit("invalid") == Err(InvalidFormat)
  {
    NegativeCpuRow();
    InvalidCpuRow();
  }

  lemma NegativeCpuRow()
    ensures ParseCpuLimit("-1") == Err(NotPositive)
  {
    assert ParseFixed("-1") == Some(Fixed(true, 1, 0)) by {
      assert "-1"[1..] == "1";
      assert Text.IndexOf("1", '.') == -1;
      assert DigitsValue("1" + "") == 1;
    }
  }

  lemma InvalidCpuRow()
    ensures ParseCpuLimit("invalid") == Err(InvalidFormat)
  {
    assert ParseFixed("invalid") == None by {
      assert Text.IndexOf("invalid", '.') == -1;
      assert !Numerals.IsDigit("invalid"[0]);
    }
  }
}

=== FILE: netnames.dfy ===
/** The pure naming and parsing logic around the container network: the
    names of a container's veth pair, the default interface read from
    `ip route show default`, and the veth name read from
    `ip link show type veth` inside the container. */
module NetNames {
  import opened Wrappers
  import Text

  /** The kernel's limit on interface name length. */
  const MaxIfName: nat := 15

  /** How many characters of the container id go into its veth names. */
  const ShortIdLength: nat := 8

  const HostPrefix: string := "veth"
  const PeerPrefix: string := "vethc"

  /** The part of the container id used in interface names. */
  function ShortId(id: string): (r: string)
    ensures |r| <= ShortIdLength
    ensures Text.HasPrefix(id, r)
    ensures |id| >= ShortIdLength ==> |r| == ShortIdLength
  {
    Text.Truncate(id, ShortIdLength)
  }

  /** The host end of the pair, cut to the interface name limit. */
  function VethHost(id: string): (r: string)
    ensures r == HostPrefix + ShortId(id)
    ensures |r| <= |HostPrefix| + ShortIdLength < MaxIfName
  {
    Text.Truncate(HostPrefix + ShortId(id), MaxIfName)
  }

  /** The container end of the pair, cut to the interface name limit. */
  function VethPeer(id: string): (r: string)
    ensures r == PeerPrefix + ShortId(id)
    ensures |r| <= |PeerPrefix| + ShortIdLength < MaxIfName
  {
    Text.Truncate(PeerPrefix + ShortId(id), MaxIfName)
  }

  /** Two containers get the same host name exactly when their ids agree
      on the first eight characters. */
  lemma VethHostCollision(a: string, b: string)
    ensures VethHost(a) == VethHost(b) <==> ShortId(a) == ShortId(b)
  {
    if VethHost(a) == VethHost(b) {
      assert ShortId(a) == VethHost(a)[|HostPrefix|..];
      assert ShortId(b) == VethHost(b)[|HostPrefix|..];
    }
  }

  /** The same holds for the container end. */
  lemma VethPeerCollision(a: string, b: string)
    ensures VethPeer(a) == VethPeer(b) <==> ShortId(a) == ShortId(b)
  {
    if VethPeer(a) == VethPeer(b) {
      assert ShortId(a) == VethPeer(a)[|PeerPrefix|..];
      assert ShortId(b) == VethPeer(b)[|PeerPrefix|..];
    }
  }

  /** For ids of at least eight characters (generated ids have more), no
      host name equals any peer name, the container's own or another's. */
  lemma HostNeverPeer(a: string, b: string)
    requires |a| >= ShortIdLength && |b| >= ShortIdLength
    ensures VethHost(a) != VethPeer(b)
  {
    assert |VethHost(a)| == 12 && |VethPeer(b)| == 13;
  }

  /** With shorter ids the two name families overlap: the host name of
      `"c1"` is the peer name of `"1"`. */
  lemma ShortIdsOverlap()
    ensures VethHost("c1") == VethPeer("1")
  {
  }

  // ---------------------------------------------------------------------
  // `getDefaultInterface`
  // ---------------------------------------------------------------------

  /** Position `i` holds the first `dev` keyword, and a word follows it. */
  predicate FirstDev(parts: seq<string>, i: int) {
    && 0 <= i < |parts| - 1
    && parts[i] == "dev"
    && forall j :: 0 <= j < i ==> parts[j] != "dev"
  }

  /** The word after the first `dev` that has one. */
  function DevAfter(parts: seq<string>): (r: Option<string>)
    ensures r.Some? ==> exists i :: FirstDev(parts, i) && parts[i + 1] == r.value
    ensures r.None? <==> forall i :: 0 <= i < |parts| - 1 ==> parts[i] != "dev"
    ensures r.Some? ==> r.value in parts
    decreases |parts|
  {
    if |parts| < 2 then None
    else if parts[0] == "dev" then
      assert FirstDev(parts, 0);
      Some(parts[1])
    else
      var rest := DevAfter(parts[1..]);
      assert forall i :: 1 <= i < |parts| ==> parts[i] == parts[1..][i - 1];
      assert forall i :: FirstDev(parts[1..], i) ==> FirstDev(parts, i + 1);
      rest
  }

  /** A line the search looks at: it mentions both `default` and `dev`. */
  predicate RouteLine(line: string) {
    Text.Contains(line, "default") && Text.Contains(line, "dev")
  }

  /** The interface a single line names, if any. */
  function LineInterface(line: string): (r: Option<string>)
    ensures r.Some? ==> Word(r.value)
  {
    if RouteLine(line) then DevAfter(Text.Fields(line)) else None
  }

  /** The interface named by the first line that names one. */
  function FirstInterface(lines: seq<string>): (r: Option<string>)
    ensures r.Some? ==> exists k :: 0 <= k < |lines| && LineInterface(lines[k]) == r
                                   && forall j :: 0 <= j < k ==> LineInterface(lines[j]).None?
    ensures r.None? <==> forall k :: 0 <= k < |lines| ==> LineInterface(lines[k]).None?
    ensures r.Some? ==> Word(r.value)
    decreases |lines|
  {
    if |lines| == 0 then None
    else if LineInterface(lines[0]).Some? then LineInterface(lines[0])
    else
      var rest := FirstInterface(lines[1..]);
      assert forall k :: 1 <= k < |lines| ==> lines[k] == lines[1..][k - 1];
      rest
  }

  /** `getDefaultInterface` on the command's output: `None` is the
      "could not find default interface" error. */
  function DefaultInterface(output: string): (r: Option<string>)
    ensures r.Some? ==> Word(r.value)
  {
    FirstInterface(Text.Split(output, '\n'))
  }

  /** Words with no white space and no line break. */
  predicate Word(w: string) {
    |w| > 0 && Text.NoSpace(w)
  }

  lemma WordHasNoNewline(w: string)
    requires Word(w)
    ensures '\n' !in w
  {
    forall i | 0 <= i < |w|
      ensures w[i] != '\n'
    {
      assert !Text.IsSpace(w[i]);
    }
  }

  /** The route line `default via <gateway> dev <interface>`, as one line of output. */
  function RouteOutput(gateway: string, dev: string): string {
    Text.Join(["default", "via", gateway, "dev", dev], ' ') + "\n"
  }

  /** The usual output of `ip route show default` yields its interface. A
      gateway that is itself the word `dev` would be taken for the
      interface keyword, so it is excluded here. */
  lemma DefaultRouteInterface(gateway: string, dev: string)
    requires Word(gateway) && Word(dev) && gateway != "dev"
    ensures DefaultInterface(RouteOutput(gateway, dev)) == Some(dev)
  {
    var line := Text.Join(["default", "via", gateway, "dev", dev], ' ');
    assert '\n' !in line by {
      WordHasNoNewline(gateway);
      WordHasNoNewline(dev);
      RouteText(gateway, dev);
    }
    assert Text.Split(RouteOutput(gateway, dev), '\n') == [line, ""] by {
      assert Text.Join([line, ""], '\n') == line + "\n";
      Text.SplitJoin([line, ""], '\n');
    }
    assert LineInterface(line) == Some(dev) by {
      RouteLineInterface(gateway, dev);
    }
  }

  lemma RouteLineInterface(gateway: string, dev: string)
    requires Word(gateway) && Word(dev) && gateway != "dev"
    ensures LineInterface(Text.Join(["default", "via", gateway, "dev", dev], ' ')) == Some(dev)
  {
    var words := ["default", "via", gateway, "dev", dev];
    var line := Text.Join(words, ' ');
    RouteLineKeywords(gateway, dev);
    assert forall i :: 0 <= i < |words| ==> Word(words[i]);
    Text.FieldsJoin(words);
    DevAfterRoute(gateway, dev);
  }

  lemma RouteLineKeywords(gateway: string, dev: string)
    ensures RouteLine(Text.Join(["default", "via", gateway, "dev", dev], ' '))
  {
    var line := Text.Join(["default", "via", gateway, "dev", dev], ' ');
    RouteText(gateway, dev);
    Text.ContainsAt(line, "default", 0);
    var at := |"default via "| + |gateway| + 1;
    assert line[at..] == "dev " + dev;
    Text.ContainsAt(line, "dev", at);
  }

  lemma RouteText(gateway: string, dev: string)
    ensures Text.Join(["default", "via", gateway, "dev", dev], ' ') == "default via " + gateway + " dev " + dev
  {
    var words := ["default", "via", gateway, "dev", dev];
    assert words[1..] == ["via", gateway, "dev", dev];
    assert words[1..][1..] == [gateway, "dev", dev];
    assert words[1..][1..][1..] == ["dev", dev];
    assert words[1..][1..][1..][1..] == [dev];
    assert Text.Join(["dev", dev], ' ') == "dev " + dev;
    assert Text.Join([gateway, "dev", dev], ' ') == gateway + " dev " + dev;
    assert Text.Join(["via", gateway, "dev", dev], ' ') == "via " + gateway + " dev " + dev;
  }

  lemma DevAfterRoute(gateway: string, dev: string)
    requires gateway != "dev"
    ensures DevAfter(["default", "via", gateway, "dev", dev]) == Some(dev)
  {
    var words := ["default", "via", gateway, "dev", dev];
    assert words[1..] == ["via", gateway, "dev", dev];
    assert words[1..][1..] == [gateway, "dev", dev];
    assert words[1..][1..][1..] == ["dev", dev];
    assert DevAfter(["dev", dev]) == Some(dev);
    assert DevAfter([gateway, "dev", dev]) == Some(dev);
    assert "via" != "dev" && DevAfter(["via", gateway, "dev", dev]) == Some(dev);
    assert "default" != "dev";
  }

  // ---------------------------------------------------------------------
  // The veth line parser of `configureContainerNetwork`
  // ---------------------------------------------------------------------

  /** The interface name a line of `ip link show type veth` names, if it is a
      veth: the second field, less a trailing `:` and anything from `@` on. */
  function LinkName(line: string): (r: Option<string>)
    ensures r.Some? ==> Text.HasPrefix(r.value, HostPrefix) && '@' !in r.value
    ensures r.Some? ==> Text.Contains(line, HostPrefix)
  {
    if !Text.Contains(line, HostPrefix) then None
    else
      var parts := Text.Fields(line);
      if |parts| < 2 then None
      else
        var name := Text.TrimSuffix(parts[1], ":");
        var at := Text.IndexOf(name, '@');
        var base := if at != -1 then name[..at] else name;
        if Text.HasPrefix(base, HostPrefix) then Some(base) else None
  }

  /** The first veth name in the output. */
  function FirstLink(lines: seq<string>): (r: Option<string>)
    ensures r.Some? ==> exists k :: 0 <= k < |lines| && LinkName(lines[k]) == r
                                   && forall j :: 0 <= j < k ==> LinkName(lines[j]).None?
    ensures r.None? <==> forall k :: 0 <= k < |lines| ==> LinkName(lines[k]).None?
    decreases |lines|
  {
    if |lines| == 0 then None
    else if LinkName(lines[0]).Some? then LinkName(lines[0])
    else
      var rest := FirstLink(lines[1..]);
      assert forall k :: 1 <= k < |lines| ==> lines[k] == lines[1..][k - 1];
      rest
  }

  /** One poll of the veth search; `None` means "not there yet". */
  function FindVeth(output: string): (r: Option<string>)
    ensures r.Some? ==> Text.HasPrefix(r.value, HostPrefix) && '@' !in r.value
  {
    FirstLink(Text.Split(output, '\n'))
  }

  /** The head of a link line, `<index>: <name>@<peer index>:`, followed by
      more fields. */
  function LinkLine(index: string, name: string, peer: string, rest: seq<string>): string {
    Text.Join([index + ":", name + "@" + peer + ":"] + rest, ' ')
  }

  /** A link line names the interface before its `@`. */
  lemma LinkLineName(index: string, name: string, peer: string, rest: seq<string>)
    requires Word(index) && Word(name) && Word(peer)
    requires forall i :: 0 <= i < |rest| ==> Word(rest[i])
    requires Text.HasPrefix(name, HostPrefix) && '@' !in name
    ensures LinkName(LinkLine(index, name, peer, rest)) == Some(name)
  {
    var second := name + "@" + peer + ":";
    var words := [index + ":", second] + rest;
    var line := Text.Join(words, ' ');
    var trimmed := name + "@" + peer;
    assert Text.Fields(line) == words by {
      assert Word(index + ":") && Word(second);
      assert forall i :: 0 <= i < |words| ==> Word(words[i]);
      Text.FieldsJoin(words);
    }
    assert Text.Contains(line, HostPrefix) by {
      var tail := Text.Join(words[1..], ' ');
      assert line == index + ":" + " " + tail;
      assert Text.HasPrefix(tail, second) by {
        if |words[1..]| > 1 {
          assert tail == second + [' '] + Text.Join(words[2..], ' ');
        }
      }
      assert line[|index| + 2..] == tail;
      Text.PrefixTransitive(tail, second, HostPrefix);
      Text.ContainsAt(line, HostPrefix, |index| + 2);
    }
    assert Text.TrimSuffix(second, ":") == trimmed by {
      Text.TrimSuffixOfConcat(trimmed, ":");
    }
    assert Text.IndexOf(trimmed, '@') == |name| && trimmed[..|name|] == name by {
      assert trimmed[|name|] == '@' && trimmed[..|name|] == name;
    }
  }
}

=== FILE: numerals.dfy ===
/** Decimal numerals: the part of Go's `strconv` (and of `%d` formatting)
    that the runtime uses, over mathematical integers. */
module Numerals {
  import opened Wrappers
  import Text

  const MinInt64: int := -0x8000_0000_0000_0000
  const MaxInt64: int := 0x7FFF_FFFF_FFFF_FFFF

  predicate InInt64(x: int) {
    MinInt64 <= x <= MaxInt64
  }

  /** Two's-complement wrap-around of Go's `int64` arithmetic. */
  function Wrap64(x: int): (r: int)
    ensures InInt64(r)
    ensures (r - x) % 0x1_0000_0000_0000_0000 == 0
    ensures InInt64(x) ==> r == x
  {
    (x - MinInt64) % 0x1_0000_0000_0000_0000 + MinInt64
  }

  /** A value up to one full turn above the `int64` range wraps to exactly
      one turn below itself. */
  lemma Wrap64OneTurn(x: int)
    requires MaxInt64 < x <= MaxInt64 + 0x1_0000_0000_0000_0000
    ensures Wrap64(x) == x - 0x1_0000_0000_0000_0000
  {
    var m := 0x1_0000_0000_0000_0000;
    var y := x - MinInt64;
    assert m <= y < 2 * m;
    assert y % m == y - m by {
      assert y == 1 * m + (y - m) && 0 <= y - m < m;
    }
  }

  predicate IsDigit(c: char) {
    '0' <= c <= '9'
  }

  predicate AllDigits(s: string) {
    forall i :: 0 <= i < |s| ==> IsDigit(s[i])
  }

  function DigitValue(c: char): nat
    requires IsDigit(c)
  {
    c as int - '0' as int
  }

  function DigitChar(d: nat): (c: char)
    requires d < 10
    ensures IsDigit(c) && DigitValue(c) == d
  {
    ('0' as int + d) as char
  }

  function Pow10(k: nat): (r: nat)
    ensures r >= 1
  {
    if k == 0 then 1 else 10 * Pow10(k - 1)
  }

  /** Euclidean division by a positive divisor brackets the dividend. */
  lemma DivBounds(x: nat, p: nat)
    requires p >= 1
    ensures (x / p) * p <= x < (x / p + 1) * p
  {
    var q := x / p;
    assert x == q * p + x % p;
    assert (q + 1) * p == q * p + p;
  }

  /** Integer division of a natural number by a positive one: the largest
      `q` with `q * p <= x`. */
  function FloorDiv(x: nat, p: nat): (q: nat)
    requires p >= 1
    ensures q * p <= x < (q + 1) * p
  {
    var q := x / p;
    DivBounds(x, p);
    assert q * p <= x < (q + 1) * p;
    q
  }

  /** Dividing an exact multiple gives back the factor. */
  lemma FloorDivExact(e: nat, p: nat)
    requires p >= 1
    ensures FloorDiv(e * p, p) == e
  {
  }

  /** The value of a string of decimal digits, most significant first; "" is 0. */
  function DigitsValue(s: string): nat
    requires AllDigits(s)
    decreases |s|
  {
    if |s| == 0 then 0 else 10 * DigitsValue(s[..|s| - 1]) + DigitValue(s[|s| - 1])
  }

  /** The value of a concatenation of digit strings. */
  lemma {:induction false} DigitsValueConcat(a: string, b: string)
    requires AllDigits(a) && AllDigits(b)
    ensures AllDigits(a + b)
    ensures DigitsValue(a + b) == DigitsValue(a) * Pow10(|b|) + DigitsValue(b)
    decreases |b|
  {
    var ab := a + b;
    assert AllDigits(ab);
    if |b| == 0 {
      assert ab == a;
    } else {
      var b' := b[..|b| - 1];
      assert AllDigits(b');
      assert ab[..|ab| - 1] == a + b';
      assert ab[|ab| - 1] == b[|b| - 1];
      DigitsValueConcat(a, b');
      var d := DigitValue(b[|b| - 1]);
      var va, vb', p' := DigitsValue(a), DigitsValue(b'), Pow10(|b'|);
      assert DigitsValue(ab) == 10 * (va * p' + vb') + d;
      assert DigitsValue(b) == 10 * vb' + d;
      assert Pow10(|b|) == 10 * p';
      assert 10 * (va * p') == va * (10 * p') by {
        MulAssocTen(va, p');
      }
    }
  }

  lemma MulAssocTen(x: nat, y: nat)
    ensures 10 * (x * y) == x * (10 * y)
  {
  }

  /** A digit string whose value is 0 holds only zeros. */
  lemma {:induction false} ZeroValueAllZeros(s: string, i: nat)
    requires AllDigits(s) && DigitsValue(s) == 0 && i < |s|
    ensures s[i] == '0'
    decreases |s|
  {
    if i < |s| - 1 {
      ZeroValueAllZeros(s[..|s| - 1], i);
    }
  }

  /** A decimal numeral as `strconv.FormatInt(n, 10)` writes it. */
  predicate Canonical(s: string) {
    |s| >= 1 && AllDigits(s) && (s[0] == '0' ==> |s| == 1)
  }

  /** `strconv.FormatInt(n, 10)` for `n >= 0`: the canonical numeral whose value is `n`. */
  function DecimalString(n: nat): (r: string)
    ensures Canonical(r)
    ensures DigitsValue(r) == n
    decreases n
  {
    if n < 10 then [DigitChar(n)]
    else
      var h := DecimalString(n / 10);
      var r := h + [DigitChar(n % 10)];
      assert r[..|r| - 1] == h;
      r
  }

  /** The canonical numeral is unique: `DecimalString` inverts `DigitsValue`
      on canonical numerals. */
  lemma {:induction false} CanonicalIsDecimalString(s: string)
    requires Canonical(s)
    ensures DecimalString(DigitsValue(s)) == s
    decreases |s|
  {
    if |s| > 1 {
      var t := s[..|s| - 1];
      var d := DigitValue(s[|s| - 1]);
      assert Canonical(t) && t[0] == s[0];
      if DigitsValue(t) == 0 {
        ZeroValueAllZeros(t, 0);
      }
      CanonicalIsDecimalString(t);
      var v := DigitsValue(s);
      assert v == 10 * DigitsValue(t) + d;
      assert v / 10 == DigitsValue(t) && v % 10 == d;
      assert s == t + [s[|s| - 1]];
    }
  }

  /** Appending a digit to a non-zero numeral multiplies by ten and adds the digit. */
  lemma DecimalStringStep(n: nat, d: nat)
    requires n >= 1 && d < 10
    ensures DecimalString(10 * n + d) == DecimalString(n) + [DigitChar(d)]
  {
    assert (10 * n + d) / 10 == n;
    assert (10 * n + d) % 10 == d;
  }

  lemma {:induction false} Pow10Add(a: nat, b: nat)
    ensures Pow10(a + b) == Pow10(a) * Pow10(b)
    decreases a
  {
    if a > 0 {
      Pow10Add(a - 1, b);
      assert Pow10(a + b) == 10 * Pow10(a - 1 + b);
    }
  }

  lemma DecimalStringInjective(m: nat, n: nat)
    requires DecimalString(m) == DecimalString(n)
    ensures m == n
  {
    assert DigitsValue(DecimalString(m)) == m;
  }

  /** `%d` / `strconv.FormatInt(i, 10)` of any integer. */
  function FormatInt(i: int): (r: string)
    ensures |r| >= 1
    ensures i < 0 <==> r[0] == '-'
  {
    if i < 0 then "-" + DecimalString(-i) else DecimalString(i)
  }

  /** `strconv.ParseInt(s, 10, 64)`: an optional sign and at least one decimal
      digit, whose value fits in `int64`. Go's syntax and range errors are
      both `None`. */
  function ParseInt64(s: string): (r: Option<int>)
    ensures r.Some? ==> InInt64(r.value)
  {
    if |s| == 0 then None
    else
      var negative := s[0] == '-';
      var body := if s[0] == '+' || s[0] == '-' then s[1..] else s;
      if |body| == 0 || !AllDigits(body) then None
      else
        var v: int := if negative then -(DigitsValue(body) as int) else DigitsValue(body);
        if InInt64(v) then Some(v) else None
  }

  /** `ParseInt64` reads back every `int64` that `FormatInt` writes. */
  lemma ParseFormatInt(i: int)
    requires InInt64(i)
    ensures ParseInt64(FormatInt(i)) == Some(i)
  {
    if i < 0 {
      assert FormatInt(i)[1..] == DecimalString(-i);
    }
  }

  /** A leading `+` is accepted and changes nothing. */
  lemma ParsePlusSign(n: nat)
    requires n <= MaxInt64
    ensures ParseInt64("+" + DecimalString(n)) == Some(n)
  {
    assert ("+" + DecimalString(n))[1..] == DecimalString(n);
  }

  /** An optional sign written before a numeral. */
  predicate IsSign(sign: string) {
    sign == "" || sign == "+" || sign == "-"
  }

  /** The value of the digits `d` under the optional sign `sign`. */
  function SignedValue(sign: string, d: string): int
    requires AllDigits(d)
  {
    if sign == "-" then -(DigitsValue(d) as int) else DigitsValue(d)
  }

  /** Any sign and digit string, leading zeros included, reads as its value
      when that fits in `int64`, and is refused otherwise. */
  lemma ParseInt64Digits(sign: string, d: string)
    requires IsSign(sign) && |d| >= 1 && AllDigits(d)
    ensures ParseInt64(sign + d)
            == if InInt64(SignedValue(sign, d)) then Some(SignedValue(sign, d)) else None
  {
    var s := sign + d;
    if sign == "" {
      assert s == d && !(s[0] == '+' || s[0] == '-');
    } else {
      assert s[0] == sign[0] && s[1..] == d;
    }
  }

  /** Conversely, what `ParseInt64` accepts is an optional sign and a
      non-empty digit string, read as its value. */
  lemma ParseInt64Shape(s: string)
    requires ParseInt64(s).Some?
    ensures |s| >= 1
    ensures var k := if s[0] == '+' || s[0] == '-' then 1 else 0;
            && k < |s| && AllDigits(s[k..])
            && ParseInt64(s) == Some(SignedValue(s[..k], s[k..]))
  {
    if s[0] == '+' || s[0] == '-' {
      assert s[..1] == [s[0]];
    } else {
      assert s[..0] == "" && s[0..] == s;
    }
  }

  lemma FormatIntInjective(i: int, j: int)
    requires FormatInt(i) == FormatInt(j)
    ensures i == j
  {
    if i < 0 && j < 0 {
      assert FormatInt(i)[1..] == DecimalString(-i);
      assert FormatInt(j)[1..] == DecimalString(-j);
      DecimalStringInjective(-i, -j);
    } else if i >= 0 && j >= 0 {
      DecimalStringInjective(i, j);
    }
  }

  /** An exact decimal number `±mantissa / 10^scale`, as written in a plain
      decimal literal such as `-12.50` (mantissa 1250, scale 2). */
  datatype Fixed = Fixed(negative: bool, mantissa: nat, scale: nat)

  /** The plain decimal literals that Go's `strconv.ParseFloat` accepts: an
      optional sign, then digits with at most one `.`, and at least one digit
      ("5", "0.5", ".5", "5." are all numbers; "." and "" are not). */
  function ParseFixed(s: string): (r: Option<Fixed>)
    ensures r.Some? ==> r.value.scale < |s|
  {
    var negative := |s| > 0 && s[0] == '-';
    var body := if |s| > 0 && (s[0] == '+' || s[0] == '-') then s[1..] else s;
    ParseUnsigned(negative, body)
  }

  /** The literal after its sign: digits with at most one `.`, and at least
      one digit, read with the given sign. */
  function ParseUnsigned(negative: bool, body: string): (r: Option<Fixed>)
    ensures r.Some? ==> r.value.scale < |body| && r.value.negative == negative
  {
    var dot := Text.IndexOf(body, '.');
    var whole := if dot < 0 then body else body[..dot];
    var frac := if dot < 0 then "" else body[dot + 1..];
    if |whole| + |frac| == 0 || !AllDigits(whole) || !AllDigits(frac) then None
    else
      DigitsValueConcat(whole, frac);
      Some(Fixed(negative, DigitsValue(whole + frac), |frac|))
  }

  /** The value a literal "w.f" stands for: w * 10^k + f at scale k = |f|. */
  function PointValue(w: nat, f: string): Fixed
    requires AllDigits(f)
  {
    Fixed(false, w * Pow10(|f|) + DigitsValue(f), |f|)
  }

  /** A numeral with a fractional part reads as whole * 10^k + fraction over 10^k. */
  lemma ParseFixedPoint(w: nat, f: string)
    requires AllDigits(f)
    ensures ParseFixed(DecimalString(w) + "." + f) == Some(PointValue(w, f))
  {
    ParseFixedUnsignedPoint(DecimalString(w), f);
    DigitsValueConcat(DecimalString(w), f);
  }

  /** A whole numeral reads as itself, at scale 0. */
  lemma ParseFixedWhole(n: nat)
    ensures ParseFixed(DecimalString(n)) == Some(Fixed(false, n, 0))
  {
    var s := DecimalString(n);
    assert Text.IndexOf(s, '.') == -1;
    assert s + "" == s;
    DigitsValueConcat(s, "");
  }

  /** A leading minus only flips the sign: "-t" parses exactly when `t`
      does, to the same digits. */
  lemma ParseFixedNegated(t: string)
    requires |t| > 0 && t[0] != '+' && t[0] != '-'
    ensures ParseFixed("-" + t).Some? <==> ParseFixed(t).Some?
    ensures ParseFixed(t).Some? ==> ParseFixed("-" + t) == Some(ParseFixed(t).value.(negative := true))
  {
    assert ("-" + t)[1..] == t;
  }

  /** A literal without a digit is not a number. */
  lemma ParseFixedNoDigit(s: string)
    requires forall k :: 0 <= k < |s| ==> !IsDigit(s[k])
    ensures ParseFixed(s) == None
  {
    var off := if |s| > 0 && (s[0] == '+' || s[0] == '-') then 1 else 0;
    var body := s[off..];
    var dot := Text.IndexOf(body, '.');
    if dot < 0 {
      assert |body| > 0 ==> !IsDigit(body[0]) by {
        if |body| > 0 { assert body[0] == s[off]; }
      }
    } else {
      assert dot > 0 ==> !IsDigit(body[..dot][0]) by {
        if dot > 0 { assert body[..dot][0] == s[off]; }
      }
      assert dot + 1 < |body| ==> !IsDigit(body[dot + 1..][0]) by {
        if dot + 1 < |body| { assert body[dot + 1..][0] == s[off + dot + 1]; }
      }
    }
  }

  /** A literal with two `.`s is not a number. */
  lemma ParseFixedTwoDots(s: string, i: nat, j: nat)
    requires i < j < |s| && s[i] == '.' && s[j] == '.'
    ensures ParseFixed(s) == None
  {
    var off := if |s| > 0 && (s[0] == '+' || s[0] == '-') then 1 else 0;
    var body := s[off..];
    assert off <= i;
    assert body[i - off] == '.';
    var dot := Text.IndexOf(body, '.');
    assert 0 <= dot <= i - off;
    var frac := body[dot + 1..];
    assert frac[j - off - dot - 1] == '.';
    assert !AllDigits(frac);
  }

  /** A sign in front of an unsigned literal changes only the sign of the
      result. */
  lemma ParseFixedSign(sign: string, body: string)
    requires IsSign(sign) && |body| >= 1 && body[0] != '+' && body[0] != '-'
    ensures ParseFixed(sign + body)
            == if ParseFixed(body).None? then None else Some(ParseFixed(body).value.(negative := sign == "-"))
  {
    assert ParseFixed(body) == ParseUnsigned(false, body);
    assert ParseFixed(sign + body) == ParseUnsigned(sign == "-", body) by {
      if sign == "" {
        assert sign + body == body;
      } else {
        assert (sign + body)[0] == sign[0] && (sign + body)[1..] == body;
      }
    }
  }

  /** The first `.` after the digits `w` is at position |w|. */
  lemma DotAfterDigits(w: string, f: string)
    requires AllDigits(w)
    ensures Text.IndexOf(w + "." + f, '.') == |w|
  {
    var body := w + "." + f;
    assert body[|w|] == '.' && body[..|w|] == w;
  }

  /** Unsigned digits, a `.` and more digits read as a decimal. */
  lemma ParseFixedUnsignedPoint(w: string, f: string)
    requires AllDigits(w) && AllDigits(f) && |w| + |f| >= 1
    ensures ParseFixed(w + "." + f) == Some(Fixed(false, DigitsValue(w + f), |f|))
  {
    var body := w + "." + f;
    assert body[0] == '.' || IsDigit(body[0]);
    DotAfterDigits(w, f);
    assert body[..|w|] == w && body[|w| + 1..] == f;
  }

  /** Any sign, digits, a `.` and more digits read as a decimal: the whole
      part may be empty (".5") or zero-padded ("02.50"), as long as there is
      a digit on one side. */
  lemma ParseFixedDigits(sign: string, w: string, f: string)
    requires IsSign(sign) && AllDigits(w) && AllDigits(f) && |w| + |f| >= 1
    ensures ParseFixed(sign + w + "." + f) == Some(Fixed(sign == "-", DigitsValue(w + f), |f|))
  {
    var body := w + "." + f;
    assert sign + w + "." + f == sign + body;
    assert ParseFixed(body) == Some(Fixed(false, DigitsValue(w + f), |f|)) by {
      ParseFixedUnsignedPoint(w, f);
    }
    assert body[0] == '.' || IsDigit(body[0]);
    ParseFixedSign(sign, body);
  }

  /** Any sign and a non-empty digit string read as a whole number,
      leading zeros included. */
  lemma ParseFixedDigitsWhole(sign: string, w: string)
    requires IsSign(sign) && |w| >= 1 && AllDigits(w)
    ensures ParseFixed(sign + w) == Some(Fixed(sign == "-", DigitsValue(w), 0))
  {
    assert ParseFixed(w) == Some(Fixed(false, DigitsValue(w), 0)) by {
      assert Text.IndexOf(w, '.') == -1;
      assert w + "" == w;
      assert IsDigit(w[0]);
    }
    assert IsDigit(w[0]);
    ParseFixedSign(sign, w);
  }
}

=== FILE: runargs.dfy ===
/** The option scan at the start of `gocker run`: the arguments after
    `run` are read left to right; the resource, volume, detach and rootfs
    options are picked out and everything else becomes the command. */
module RunArgs {
  import opened Wrappers

  /** What `run` takes from its arguments. Empty strings mean "not given". */
  datatype RunOptions = RunOptions(
    cpuLimit: string,
    memoryLimit: string,
    volumes: seq<string>,
    detached: bool,
    rootfs: string,
    command: seq<string>)

  datatype ArgsError = CommandRequired

  const NoOptions: RunOptions := RunOptions("", "", [], false, "", [])

  /** Options followed by a value. */
  predicate TakesValue(a: string) {
    a == "--cpu-limit" || a == "--memory-limit" || a == "--volume" || a == "-v" || a == "--rootfs"
  }

  /** Options standing alone. */
  predicate IsSwitch(a: string) {
    a == "--detach" || a == "-d"
  }

  predicate IsOption(a: string) {
    TakesValue(a) || IsSwitch(a)
  }

  /** The effect of a value option on the options read so far: a later
      value replaces an earlier one, volumes accumulate in order. */
  function WithValue(o: RunOptions, flag: string, value: string): (r: RunOptions)
    requires TakesValue(flag)
    ensures r.command == o.command && r.detached == o.detached
  {
    if flag == "--cpu-limit" then o.(cpuLimit := value)
    else if flag == "--memory-limit" then o.(memoryLimit := value)
    else if flag == "--rootfs" then o.(rootfs := value)
    else o.(volumes := o.volumes + [value])
  }

  /** The loop over the arguments, as written: an option is recognised
      wherever it appears, also after the command has begun. A value option
      in last position has no value and is dropped. */
  function Scan(args: seq<string>, o: RunOptions): (r: RunOptions)
    ensures |o.command| <= |r.command| <= |o.command| + |args|
    decreases |args|
  {
    if |args| == 0 then o
    else
      var a := args[0];
      if TakesValue(a) then
        if |args| >= 2 then Scan(args[2..], WithValue(o, a, args[1])) else o
      else if IsSwitch(a) then Scan(args[1..], o.(detached := true))
      else Scan(args[1..], o.(command := o.command + [a]))
  }

  /** The scan only appends to the command, and only words of `args` that
      are not options. */
  lemma {:induction false} ScanCommand(args: seq<string>, o: RunOptions)
    ensures var r := Scan(args, o);
            |o.command| <= |r.command| <= |o.command| + |args|
            && r.command[..|o.command|] == o.command
            && forall k :: |o.command| <= k < |r.command| ==> r.command[k] in args && !IsOption(r.command[k])
    decreases |args|
  {
    if |args| > 0 {
      var a := args[0];
      assert forall x :: x in args[1..] ==> x in args;
      if TakesValue(a) {
        if |args| >= 2 {
          assert forall x :: x in args[2..] ==> x in args;
          ScanCommand(args[2..], WithValue(o, a, args[1]));
        }
      } else if IsSwitch(a) {
        ScanCommand(args[1..], o.(detached := true));
      } else {
        var o1 := o.(command := o.command + [a]);
        ScanCommand(args[1..], o1);
        var r := Scan(args[1..], o1);
        assert r.command[..|o.command| + 1][..|o.command|] == r.command[..|o.command|];
      }
    }
  }

  /** `run`'s argument handling: a run without a command is refused. */
  function Parse(args: seq<string>): (r: Result<RunOptions, ArgsError>)
    ensures r.Ok? ==> |r.value.command| >= 1
    ensures r.Ok? ==> forall k :: 0 <= k < |r.value.command| ==> r.value.command[k] in args && !IsOption(r.value.command[k])
    ensures (forall k :: 0 <= k < |args| ==> IsOption(args[k])) ==> r == Err(CommandRequired)
  {
    var o := Scan(args, NoOptions);
    ScanCommand(args, NoOptions);
    if |o.command| == 0 then Err(CommandRequired)
    else
      assert o.command[0] in args && !IsOption(o.command[0]);
      Ok(o)
  }

  // ---------------------------------------------------------------------
  // Writing options back as arguments
  // ---------------------------------------------------------------------

  /** A value option, left out when the value is empty. */
  function ValueArg(flag: string, value: string): seq<string> {
    if value == "" then [] else [flag, value]
  }

  function VolumeArgs(volumes: seq<string>): (args: seq<string>)
    ensures |args| == 2 * |volumes|
    decreases |volumes|
  {
    if |volumes| == 0 then [] else ["-v", volumes[0]] + VolumeArgs(volumes[1..])
  }

  /** The arguments of `gocker run [options] <command> [args...]` for the
      given options: the options first, then the command. */
  function Unparse(o: RunOptions): seq<string> {
    OptionsThen(o, o.command)
  }

  /** The options of `o` as arguments, followed by `rest`. */
  function OptionsThen(o: RunOptions, rest: seq<string>): seq<string> {
    ValueArg("--cpu-limit", o.cpuLimit) + (ValueArg("--memory-limit", o.memoryLimit)
    + (VolumeArgs(o.volumes) + (DetachArg(o.detached) + (ValueArg("--rootfs", o.rootfs) + rest))))
  }

  function DetachArg(detached: bool): seq<string> {
    if detached then ["-d"] else []
  }

  /** No word of the command looks like an option. */
  predicate PlainCommand(command: seq<string>) {
    forall k :: 0 <= k < |command| ==> !IsOption(command[k])
  }

  /** A value option and its value are read in one step. */
  lemma ScanStep(flag: string, value: string, rest: seq<string>, o: RunOptions)
    requires TakesValue(flag)
    ensures Scan([flag, value] + rest, o) == Scan(rest, WithValue(o, flag, value))
  {
    assert ([flag, value] + rest)[2..] == rest;
  }

  lemma ScanValueArg(flag: string, value: string, rest: seq<string>, o: RunOptions)
    requires TakesValue(flag)
    ensures Scan(ValueArg(flag, value) + rest, o) == Scan(rest, if value == "" then o else WithValue(o, flag, value))
  {
    if value != "" {
      ScanStep(flag, value, rest, o);
    } else {
      assert [] + rest == rest;
    }
  }

  lemma {:induction false} ScanVolumeArgs(volumes: seq<string>, rest: seq<string>, o: RunOptions)
    ensures Scan(VolumeArgs(volumes) + rest, o) == Scan(rest, o.(volumes := o.volumes + volumes))
    decreases |volumes|
  {
    if |volumes| == 0 {
      assert [] + rest == rest;
      assert o.volumes + volumes == o.volumes;
    } else {
      var later := VolumeArgs(volumes[1..]) + rest;
      var o1 := o.(volumes := o.volumes + [volumes[0]]);
      assert VolumeArgs(volumes) + rest == ["-v", volumes[0]] + later;
      ScanStep("-v", volumes[0], later, o);
      ScanVolumeArgs(volumes[1..], rest, o1);
      assert o.volumes + [volumes[0]] + volumes[1..] == o.volumes + volumes;
    }
  }

  lemma {:induction false} ScanPlain(command: seq<string>, o: RunOptions)
    requires PlainCommand(command)
    ensures Scan(command, o) == o.(command := o.command + command)
    decreases |command|
  {
    if |command| == 0 {
      assert o.command + command == o.command;
    } else {
      var o1 := o.(command := o.command + [command[0]]);
      assert !TakesValue(command[0]) && !IsSwitch(command[0]);
      assert Scan(command, o) == Scan(command[1..], o1);
      assert PlainCommand(command[1..]) by {
        assert forall k :: 0 <= k < |command| - 1 ==> command[1..][k] == command[k + 1];
      }
      ScanPlain(command[1..], o1);
      assert o.command + [command[0]] + command[1..] == o.command + command;
    }
  }

  /** The options part of the arguments sets exactly those options. */
  lemma ScanOptionArgs(o: RunOptions, rest: seq<string>)
    ensures Scan(OptionsThen(o, rest), NoOptions) == Scan(rest, o.(command := []))
  {
    var o1 := NoOptions.(cpuLimit := o.cpuLimit, memoryLimit := o.memoryLimit);
    var v := VolumeArgs(o.volumes) + (DetachArg(o.detached) + (ValueArg("--rootfs", o.rootfs) + rest));
    ScanValueArg("--cpu-limit", o.cpuLimit, ValueArg("--memory-limit", o.memoryLimit) + v, NoOptions);
    ScanValueArg("--memory-limit", o.memoryLimit, v, NoOptions.(cpuLimit := o.cpuLimit));
    ScanLaterArgs(o, rest, o1);
  }

  lemma ScanLaterArgs(o: RunOptions, rest: seq<string>, o1: RunOptions)
    requires o1 == NoOptions.(cpuLimit := o.cpuLimit, memoryLimit := o.memoryLimit)
    ensures Scan(VolumeArgs(o.volumes) + (DetachArg(o.detached) + (ValueArg("--rootfs", o.rootfs) + rest)), o1)
            == Scan(rest, o.(command := []))
  {
    var o2 := o1.(volumes := o.volumes);
    var o3 := o2.(detached := o.detached);
    var r := ValueArg("--rootfs", o.rootfs) + rest;
    ScanVolumeArgs(o.volumes, DetachArg(o.detached) + r, o1);
    assert o1.volumes + o.volumes == o.volumes;
    ScanDetachArg(o.detached, r, o2);
    ScanValueArg("--rootfs", o.rootfs, rest, o3);
  }

  lemma ScanDetachArg(detached: bool, rest: seq<string>, o: RunOptions)
    ensures Scan(DetachArg(detached) + rest, o) == Scan(rest, if detached then o.(detached := true) else o)
  {
    if detached {
      assert (["-d"] + rest)[1..] == rest;
    } else {
      assert [] + rest == rest;
    }
  }

  /** Options written before a command none of whose words is an option
      are read back exactly. */
  lemma RoundTrip(o: RunOptions)
    requires |o.command| >= 1 && PlainCommand(o.command)
    ensures Parse(Unparse(o)) == Ok(o)
  {
    ScanOptionArgs(o, o.command);
    ScanPlain(o.command, o.(command := []));
    assert [] + o.command == o.command;
  }

  /** As written, words of the command that look like options are taken
      as options: `gocker run ls -d /` runs `ls /` detached. */
  lemma CommandWordTakenAsOption()
    ensures Unparse(NoOptions.(command := ["ls", "-d", "/"])) == ["ls", "-d", "/"]
    ensures Parse(["ls", "-d", "/"]) == Ok(NoOptions.(detached := true, command := ["ls", "/"]))
  {
    var args := ["ls", "-d", "/"];
    assert args[1..] == ["-d", "/"];
    assert args[1..][1..] == ["/"];
    assert !IsOption("ls") && !TakesValue("-d") && IsSwitch("-d") && !IsOption("/");
    var o1 := NoOptions.(command := ["ls"]);
    var o2 := o1.(detached := true);
    assert Scan(["/"], o2) == o2.(command := ["ls", "/"]) by {
      assert ["/"][1..] == [];
    }
    assert Scan(["-d", "/"], o1) == Scan(["/"], o2);
    assert Scan(args, NoOptions) == Scan(["-d", "/"], o1);
  }

  // ---------------------------------------------------------------------
  // Options only before the command
  // ---------------------------------------------------------------------

  /** The scan the usage line `gocker run [options] <command> [args...]`
      describes: options are read up to the first word that is not one,
      and that word and everything after it is the command. */
  function ScanStrict(args: seq<string>, o: RunOptions): (r: RunOptions)
    ensures r.command == o.command || |r.command| <= |args|
    decreases |args|
  {
    if |args| == 0 then o
    else
      var a := args[0];
      if TakesValue(a) then
        if |args| >= 2 then ScanStrict(args[2..], WithValue(o, a, args[1])) else o
      else if IsSwitch(a) then ScanStrict(args[1..], o.(detached := true))
      else o.(command := args)
  }

  /** Starting from no command, the strict scan's command is a suffix of
      `args`: everything from the first word that is not an option. */
  lemma {:induction false} ScanStrictCommand(args: seq<string>, o: RunOptions)
    requires o.command == []
    ensures StrictCommandIsSuffix(args, o)
    decreases |args|, 1
  {
    if |args| > 0 {
      var a := args[0];
      if TakesValue(a) {
        if |args| >= 2 {
          assert ScanStrict(args, o) == ScanStrict(args[2..], WithValue(o, a, args[1]));
          ScanStrictCommandSkip(args, 2, WithValue(o, a, args[1]));
        }
      } else if IsSwitch(a) {
        assert ScanStrict(args, o) == ScanStrict(args[1..], o.(detached := true));
        ScanStrictCommandSkip(args, 1, o.(detached := true));
      } else {
        assert args[0..] == args;
      }
    }
  }

  /** The strict scan of `args` from `o` has a command that is a suffix of `args`. */
  predicate StrictCommandIsSuffix(args: seq<string>, o: RunOptions) {
    var r := ScanStrict(args, o);
    |r.command| <= |args| && r.command == args[|args| - |r.command|..]
  }

  /** The step of `ScanStrictCommand` past the first `k` arguments, when the
      scan goes on from `o1`. */
  lemma {:induction false} ScanStrictCommandSkip(args: seq<string>, k: nat, o1: RunOptions)
    requires 1 <= k <= |args| && o1.command == []
    ensures var r := ScanStrict(args[k..], o1);
            |r.command| <= |args| && r.command == args[|args| - |r.command|..]
    decreases |args|, 0
  {
    var r := ScanStrict(args[k..], o1);
    assert |r.command| <= |args| - k && r.command == args[k..][|args| - k - |r.command|..] by {
      ScanStrictCommand(args[k..], o1);
    }
    assert args[k..][|args| - k - |r.command|..] == args[|args| - |r.command|..];
  }

  /** `run`'s argument handling with options only before the command. */
  function ParseStrict(args: seq<string>): (r: Result<RunOptions, ArgsError>)
    ensures r.Ok? ==> 1 <= |r.value.command| <= |args|
                      && r.value.command == args[|args| - |r.value.command|..]
  {
    var o := ScanStrict(args, NoOptions);
    ScanStrictCommand(args, NoOptions);
    if |o.command| == 0 then Err(CommandRequired) else Ok(o)
  }

  lemma ScanStrictStep(flag: string, value: string, rest: seq<string>, o: RunOptions)
    requires TakesValue(flag) && o.command == []
    ensures ScanStrict([flag, value] + rest, o) == ScanStrict(rest, WithValue(o, flag, value))
  {
    assert ([flag, value] + rest)[2..] == rest;
  }

  lemma ScanStrictValueArg(flag: string, value: string, rest: seq<string>, o: RunOptions)
    requires TakesValue(flag) && o.command == []
    ensures ScanStrict(ValueArg(flag, value) + rest, o) == ScanStrict(rest, if value == "" then o else WithValue(o, flag, value))
  {
    if value != "" {
      ScanStrictStep(flag, value, rest, o);
    } else {
      assert [] + rest == rest;
    }
  }

  lemma {:induction false} ScanStrictVolumeArgs(volumes: seq<string>, rest: seq<string>, o: RunOptions)
    requires o.command == []
    ensures ScanStrict(VolumeArgs(volumes) + rest, o) == ScanStrict(rest, o.(volumes := o.volumes + volumes))
    decreases |volumes|
  {
    if |volumes| == 0 {
      assert [] + rest == rest;
      assert o.volumes + volumes == o.volumes;
    } else {
      var later := VolumeArgs(volumes[1..]) + rest;
      var o1 := o.(volumes := o.volumes + [volumes[0]]);
      assert ScanStrict(VolumeArgs(volumes) + rest, o) == ScanStrict(later, o1) by {
        assert VolumeArgs(volumes) + rest == ["-v", volumes[0]] + later;
        ScanStrictStep("-v", volumes[0], later, o);
      }
      assert ScanStrict(later, o1) == ScanStrict(rest, o1.(volumes := o1.volumes + volumes[1..])) by {
        ScanStrictVolumeArgs(volumes[1..], rest, o1);
      }
      assert o1.volumes + volumes[1..] == o.volumes + volumes;
    }
  }

  lemma ScanStrictDetachArg(detached: bool, rest: seq<string>, o: RunOptions)
    requires o.command == []
    ensures ScanStrict(DetachArg(detached) + rest, o) == ScanStrict(rest, if detached then o.(detached := true) else o)
  {
    if detached {
      assert (["-d"] + rest)[1..] == rest;
    } else {
      assert [] + rest == rest;
    }
  }

  lemma ScanStrictOptionArgs(o: RunOptions, rest: seq<string>)
    ensures ScanStrict(OptionsThen(o, rest), NoOptions) == ScanStrict(rest, o.(command := []))
  {
    var o1 := NoOptions.(cpuLimit := o.cpuLimit, memoryLimit := o.memoryLimit);
    var v := VolumeArgs(o.volumes) + (DetachArg(o.detached) + (ValueArg("--rootfs", o.rootfs) + rest));
    ScanStrictValueArg("--cpu-limit", o.cpuLimit, ValueArg("--memory-limit", o.memoryLimit) + v, NoOptions);
    ScanStrictValueArg("--memory-limit", o.memoryLimit, v, NoOptions.(cpuLimit := o.cpuLimit));
    ScanStrictLaterArgs(o, rest, o1);
  }

  lemma ScanStrictLaterArgs(o: RunOptions, rest: seq<string>, o1: RunOptions)
    requires o1 == NoOptions.(cpuLimit := o.cpuLimit, memoryLimit := o.memoryLimit)
    ensures ScanStrict(VolumeArgs(o.volumes) + (DetachArg(o.detached) + (ValueArg("--rootfs", o.rootfs) + rest)), o1)
            == ScanStrict(rest, o.(command := []))
  {
    var o2 := o1.(volumes := o.volumes);
    var o3 := o2.(detached := o.detached);
    var r := ValueArg("--rootfs", o.rootfs) + rest;
    ScanStrictVolumeArgs(o.volumes, DetachArg(o.detached) + r, o1);
    assert o1.volumes + o.volumes == o.volumes;
    ScanStrictDetachArg(o.detached, r, o2);
    ScanStrictValueArg("--rootfs", o.rootfs, rest, o3);
  }

  /** With options only before the command, any command is read back
      whole, provided its first word is not itself an option. */
  lemma StrictRoundTrip(o: RunOptions)
    requires |o.command| >= 1 && !IsOption(o.command[0])
    ensures ParseStrict(Unparse(o)) == Ok(o)
  {
    ScanStrictOptionArgs(o, o.command);
  }
}

=== FILE: text.dfy ===
/** The part of Go's `strings` package that the runtime's parsers use,
    over strings as sequences of Unicode code points. */
module Text {

  /** Go's `unicode.IsSpace`: ASCII white space, NEL, NO-BREAK SPACE and the
      other code points with the Unicode White_Space property. */
  predicate IsSpace(c: char) {
    || c == ' ' || c == '\t' || c == '\n' || c == '\U{0B}' || c == '\U{0C}' || c == '\r'
    || c == '\U{85}' || c == '\U{A0}' || c == '\U{1680}'
    || ('\U{2000}' <= c <= '\U{200A}')
    || c == '\U{2028}' || c == '\U{2029}' || c == '\U{202F}' || c == '\U{205F}' || c == '\U{3000}'
  }

  /** No character of `s` is white space. */
  predicate NoSpace(s: string) {
    forall i :: 0 <= i < |s| ==> !IsSpace(s[i])
  }

  predicate HasPrefix(s: string, prefix: string) {
    |prefix| <= |s| && s[..|prefix|] == prefix
  }

  predicate HasSuffix(s: string, suffix: string) {
    |suffix| <= |s| && s[|s| - |suffix|..] == suffix
  }

  lemma PrefixTransitive(a: string, b: string, c: string)
    requires HasPrefix(a, b) && HasPrefix(b, c)
    ensures HasPrefix(a, c)
  {
    assert a[..|c|] == a[..|b|][..|c|];
  }

  lemma PrefixOfConcat(a: string, b: string)
    ensures HasPrefix(a + b, a)
  {
    assert (a + b)[..|a|] == a;
  }

  /** `strings.TrimSuffix`: removes one occurrence of `suffix` at the end, if present. */
  function TrimSuffix(s: string, suffix: string): (r: string)
    ensures HasSuffix(s, suffix) ==> r + suffix == s
    ensures !HasSuffix(s, suffix) ==> r == s
  {
    if HasSuffix(s, suffix) then s[..|s| - |suffix|] else s
  }

  lemma TrimSuffixOfConcat(s: string, suffix: string)
    ensures HasSuffix(s + suffix, suffix)
    ensures TrimSuffix(s + suffix, suffix) == s
  {
    assert (s + suffix)[|s + suffix| - |suffix|..] == suffix;
    assert (s + suffix)[..|s|] == s;
  }

  /** `s` without its leading white space. */
  function TrimLeftSpace(s: string): (r: string)
    ensures r == [] || !IsSpace(r[0])
    decreases |s|
  {
    if |s| > 0 && IsSpace(s[0]) then TrimLeftSpace(s[1..]) else s
  }

  /** `s` without its trailing white space. */
  function TrimRightSpace(s: string): (r: string)
    ensures r == [] || !IsSpace(r[|r| - 1])
    decreases |s|
  {
    if |s| > 0 && IsSpace(s[|s| - 1]) then TrimRightSpace(s[..|s| - 1]) else s
  }

  /** `TrimLeftSpace` drops a run of white space from the front. */
  lemma {:induction false} TrimLeftSlice(s: string)
    ensures |TrimLeftSpace(s)| <= |s| && TrimLeftSpace(s) == s[|s| - |TrimLeftSpace(s)|..]
    ensures forall i :: 0 <= i < |s| - |TrimLeftSpace(s)| ==> IsSpace(s[i])
    decreases |s|
  {
    if |s| > 0 && IsSpace(s[0]) {
      TrimLeftSlice(s[1..]);
      assert forall i :: 1 <= i < |s| ==> s[i] == s[1..][i - 1];
    }
  }

  /** `TrimRightSpace` drops a run of white space from the back. */
  lemma {:induction false} TrimRightSlice(s: string)
    ensures |TrimRightSpace(s)| <= |s| && TrimRightSpace(s) == s[..|TrimRightSpace(s)|]
    ensures forall i :: |TrimRightSpace(s)| <= i < |s| ==> IsSpace(s[i])
    decreases |s|
  {
    if |s| > 0 && IsSpace(s[|s| - 1]) {
      TrimRightSlice(s[..|s| - 1]);
      assert forall i :: 0 <= i < |s| - 1 ==> s[i] == s[..|s| - 1][i];
    }
  }

  /** Every character of `s` is white space. */
  predicate NoneButSpace(s: string) {
    forall k :: 0 <= k < |s| ==> IsSpace(s[k])
  }

  /** A string that `strings.TrimSpace` leaves alone. */
  predicate Trimmed(s: string) {
    s == [] || (!IsSpace(s[0]) && !IsSpace(s[|s| - 1]))
  }

  /** `strings.TrimSpace`: `s` without its leading and trailing white space. */
  function TrimSpace(s: string): (r: string)
    ensures Trimmed(r)
  {
    var l := TrimLeftSpace(s);
    TrimRightSlice(l);
    TrimRightSpace(l)
  }

  /** What `TrimSpace` removes is white space on either side of a slice. */
  lemma TrimSpaceSlice(s: string)
    ensures exists i, j :: 0 <= i <= j <= |s| && TrimSpace(s) == s[i..j]
                           && (forall k :: 0 <= k < i ==> IsSpace(s[k]))
                           && (forall k :: j <= k < |s| ==> IsSpace(s[k]))
  {
    var l := TrimLeftSpace(s);
    var r := TrimRightSpace(l);
    TrimLeftSlice(s);
    TrimRightSlice(l);
    var i := |s| - |l|;
    assert r == s[i..i + |r|];
    assert forall k :: i + |r| <= k < |s| ==> s[k] == l[k - i];
  }

  /** A character absent from a string is absent from its trimmed form. */
  lemma NotInTrimSpace(s: string, c: char)
    requires c !in s
    ensures c !in TrimSpace(s)
  {
    TrimSpaceSlice(s);
    var i, j :| 0 <= i <= j <= |s| && TrimSpace(s) == s[i..j];
    assert forall k :: 0 <= k < j - i ==> s[i..j][k] == s[i + k];
  }

  lemma TrimSpaceOfTrimmed(s: string)
    requires Trimmed(s)
    ensures TrimSpace(s) == s
  {
  }

  /** Leading white space before text that does not start with it is dropped. */
  lemma {:induction false} TrimLeftOfSpaces(a: string, s: string)
    requires NoneButSpace(a)
    requires s == [] || !IsSpace(s[0])
    ensures TrimLeftSpace(a + s) == s
    decreases |a|
  {
    if |a| > 0 {
      assert (a + s)[0] == a[0] && (a + s)[1..] == a[1..] + s;
      TrimLeftOfSpaces(a[1..], s);
    } else {
      assert a + s == s;
    }
  }

  /** Trailing white space after text that does not end with it is dropped. */
  lemma {:induction false} TrimRightOfSpaces(s: string, b: string)
    requires NoneButSpace(b)
    requires s == [] || !IsSpace(s[|s| - 1])
    ensures TrimRightSpace(s + b) == s
    decreases |b|
  {
    if |b| > 0 {
      var t := s + b;
      assert t[|t| - 1] == b[|b| - 1] && t[..|t| - 1] == s + b[..|b| - 1];
      TrimRightOfSpaces(s, b[..|b| - 1]);
    } else {
      assert s + b == s;
    }
  }

  /** `strings.TrimSpace` removes exactly the white space padding around
      non-empty trimmed text. */
  lemma TrimSpacePadded(a: string, t: string, b: string)
    requires NoneButSpace(a) && NoneButSpace(b)
    requires |t| >= 1 && Trimmed(t)
    ensures TrimSpace(a + t + b) == t
  {
    assert a + t + b == a + (t + b);
    assert TrimLeftSpace(a + (t + b)) == t + b by {
      assert (t + b)[0] == t[0];
      TrimLeftOfSpaces(a, t + b);
    }
    TrimRightOfSpaces(t, b);
  }

  /** ASCII upper-casing of one character. */
  function UpperChar(c: char): char {
    if 'a' <= c <= 'z' then (c as int - 32) as char else c
  }

  /** `strings.ToUpper`, restricted to the ASCII letters. */
  function ToUpper(s: string): (r: string)
    ensures |r| == |s|
    ensures forall i :: 0 <= i < |s| ==> r[i] == UpperChar(s[i])
  {
    seq(|s|, i requires 0 <= i < |s| => UpperChar(s[i]))
  }

  lemma ToUpperConcat(a: string, b: string)
    ensures ToUpper(a + b) == ToUpper(a) + ToUpper(b)
  {
  }

  /** The first `n` characters of `s`, or all of `s` when it is shorter. */
  function Truncate(s: string, n: nat): (r: string)
    ensures |r| == if |s| <= n then |s| else n
    ensures HasPrefix(s, r)
  {
    if |s| > n then s[..n] else s
  }

  /** `strings.Contains`: `sub` occurs somewhere in `s`. */
  predicate Contains(s: string, sub: string)
    decreases |s|
  {
    HasPrefix(s, sub) || (|s| > 0 && Contains(s[1..], sub))
  }

  lemma {:induction false} ContainsAt(s: string, sub: string, i: nat)
    requires i <= |s| && HasPrefix(s[i..], sub)
    ensures Contains(s, sub)
    decreases i
  {
    if i > 0 {
      assert s[1..][i - 1..] == s[i..];
      ContainsAt(s[1..], sub, i - 1);
    }
  }

  /** `strings.Index` for a one-character needle: the first position of `c`, or -1. */
  function IndexOf(s: string, c: char): (r: int)
    ensures -1 <= r < |s|
    ensures r == -1 <==> c !in s
    ensures r >= 0 ==> s[r] == c && c !in s[..r]
    decreases |s|
  {
    if |s| == 0 then -1
    else if s[0] == c then 0
    else
      var k := IndexOf(s[1..], c);
      assert s[1..] == s[1..|s|];
      if k < 0 then -1
      else
        assert s[..k + 1] == [s[0]] + s[1..][..k];
        k + 1
  }

  /** `strings.Join` with a one-character separator. */
  function Join(parts: seq<string>, sep: char): string
    decreases |parts|
  {
    if |parts| == 0 then ""
    else if |parts| == 1 then parts[0]
    else parts[0] + [sep] + Join(parts[1..], sep)
  }

  /** No part contains the separator. */
  predicate SepFree(parts: seq<string>, sep: char) {
    forall i :: 0 <= i < |parts| ==> sep !in parts[i]
  }

  /** `strings.Split` with a one-character separator: the pieces between
      separators, always at least one (`Split("", sep) == [""]`). */
  function Split(s: string, sep: char): (r: seq<string>)
    ensures |r| >= 1
    decreases |s|
  {
    if |s| == 0 then [""]
    else
      var rest := Split(s[1..], sep);
      if s[0] == sep then [""] + rest
      else [[s[0]] + rest[0]] + rest[1..]
  }

  /** The pieces of `Split` hold no separator and join back to the input. */
  lemma {:induction false} SplitSpec(s: string, sep: char)
    ensures SepFree(Split(s, sep), sep)
    ensures Join(Split(s, sep), sep) == s
    decreases |s|
  {
    if |s| > 0 {
      var rest := Split(s[1..], sep);
      SplitSpec(s[1..], sep);
      if s[0] == sep {
        assert [sep] + s[1..] == s;
      } else {
        var head := [s[0]] + rest[0];
        assert head + (if |rest| == 1 then "" else [sep] + Join(rest[1..], sep)) == s;
        assert sep !in head;
      }
    }
  }

  /** Joining separator-free pieces loses nothing: equal joins come from equal pieces. */
  lemma {:induction false} JoinInjective(a: seq<string>, b: seq<string>, sep: char)
    requires |a| >= 1 && |b| >= 1 && SepFree(a, sep) && SepFree(b, sep)
    requires Join(a, sep) == Join(b, sep)
    ensures a == b
    decreases |a|
  {
    var s := Join(a, sep);
    if |a| == 1 && |b| == 1 {
    } else if |a| == 1 || |b| == 1 {
      assert false;
    } else {
      assert IndexOf(s, sep) == |a[0]| by {
        assert s[..|a[0]|] == a[0];
        assert s[|a[0]|] == sep;
      }
      assert IndexOf(s, sep) == |b[0]| by {
        assert s[..|b[0]|] == b[0];
        assert s[|b[0]|] == sep;
      }
      assert a[0] == s[..|a[0]|] == b[0];
      var ta := Join(a[1..], sep);
      var tb := Join(b[1..], sep);
      assert ta == s[|a[0]| + 1..];
      assert tb == s[|b[0]| + 1..];
      assert SepFree(a[1..], sep) && SepFree(b[1..], sep);
      JoinInjective(a[1..], b[1..], sep);
      assert a == [a[0]] + a[1..];
      assert b == [b[0]] + b[1..];
    }
  }

  /** `Split` undoes `Join` on separator-free pieces. */
  lemma SplitJoin(parts: seq<string>, sep: char)
    requires |parts| >= 1 && SepFree(parts, sep)
    ensures Split(Join(parts, sep), sep) == parts
  {
    SplitSpec(Join(parts, sep), sep);
    JoinInjective(Split(Join(parts, sep), sep), parts, sep);
  }

  /** The leading run of non-space characters of `s`. */
  function Token(s: string): (r: string)
    ensures |r| <= |s| && r == s[..|r|]
    ensures NoSpace(r)
    ensures |r| < |s| ==> IsSpace(s[|r|])
    decreases |s|
  {
    if |s| == 0 || IsSpace(s[0]) then [] else [s[0]] + Token(s[1..])
  }

  /** `strings.Fields`: the maximal runs of non-space characters, in order. */
  function Fields(s: string): (r: seq<string>)
    ensures forall i :: 0 <= i < |r| ==> |r[i]| > 0 && NoSpace(r[i])
    decreases |s|
  {
    if |s| == 0 then []
    else if IsSpace(s[0]) then Fields(s[1..])
    else
      var t := Token(s);
      [t] + Fields(s[|t|..])
  }

  lemma {:induction false} TokenOfConcat(t: string, rest: string)
    requires NoSpace(t)
    requires rest == [] || IsSpace(rest[0])
    ensures Token(t + rest) == t
    decreases |t|
  {
    if |t| == 0 {
    } else {
      assert (t + rest)[1..] == t[1..] + rest;
      TokenOfConcat(t[1..], rest);
      assert t == [t[0]] + t[1..];
    }
  }

  /** A non-empty space-free word followed by white space (or nothing) is the first field. */
  lemma FieldsOfWord(t: string, rest: string)
    requires |t| > 0 && NoSpace(t)
    requires rest == [] || IsSpace(rest[0])
    ensures Fields(t + rest) == [t] + Fields(rest)
  {
    TokenOfConcat(t, rest);
    assert (t + rest)[|t|..] == rest;
  }

  /** Leading white space contributes no field. */
  lemma FieldsOfSpace(c: char, rest: string)
    requires IsSpace(c)
    ensures Fields([c] + rest) == Fields(rest)
  {
    assert ([c] + rest)[1..] == rest;
  }

  /** Fields separated by single blanks are read back by `Fields`. */
  lemma {:induction false} FieldsJoin(words: seq<string>)
    requires forall i :: 0 <= i < |words| ==> |words[i]| > 0 && NoSpace(words[i])
    ensures Fields(Join(words, ' ')) == words
    decreases |words|
  {
    if |words| == 1 {
      FieldsOfWord(words[0], "");
      assert words[0] + "" == words[0];
    } else if |words| > 1 {
      var tail := words[1..];
      assert forall i :: 0 <= i < |tail| ==> tail[i] == words[i + 1];
      var rest := Join(tail, ' ');
      assert Join(words, ' ') == words[0] + ([' '] + rest);
      FieldsJoin(tail);
      FieldsOfWord(words[0], [' '] + rest);
      FieldsOfSpace(' ', rest);
      assert words == [words[0]] + tail;
    }
  }
}

=== FILE: volumes.dfy ===
/** Volume specifications: `run` joins its `-v host:container` flags with
    `|`, and the container side splits that string back into bind mounts,
    checking each entry before it is mounted. */
module Volumes {
  import opened Wrappers
  import Text

  /** A bind mount of host path `host` at `container` inside the rootfs. */
  datatype Volume = Volume(host: string, container: string)

  datatype VolumeError =
    | WrongPartCount(entry: string)          // not exactly one ':'
    | EmptyPart(entry: string)               // a side is blank
    | RelativeContainerPath(path: string)    // the container side is not absolute

  /** What one `|`-separated entry amounts to. */
  datatype Entry = Skip | Mount(volume: Volume) | Bad(error: VolumeError)

  /** `filepath.IsAbs` on Linux. */
  predicate IsAbs(path: string) {
    Text.HasPrefix(path, "/")
  }

  /** A volume as the parser produces it: both sides non-blank, trimmed
      and colon-free, and the container side absolute. */
  predicate ValidVolume(v: Volume) {
    && v.host != "" && v.container != ""
    && Text.Trimmed(v.host) && Text.Trimmed(v.container)
    && ':' !in v.host && ':' !in v.container
    && IsAbs(v.container)
  }

  /** A character of a part is a character of the join. */
  lemma {:induction false} InJoin(parts: seq<string>, sep: char, k: int, c: char)
    requires 0 <= k < |parts| && c in parts[k]
    ensures c in Text.Join(parts, sep)
    decreases |parts|
  {
    if |parts| > 1 {
      if k > 0 {
        InJoin(parts[1..], sep, k - 1, c);
      }
      var rest := Text.Join(parts[1..], sep);
      assert Text.Join(parts, sep) == parts[0] + [sep] + rest;
    }
  }

  /** One entry, as the loop body of `mountVolumes` checks it. */
  function ParseEntry(entry: string): (r: Entry)
    ensures r.Skip? <==> Text.TrimSpace(entry) == ""
    ensures r.Mount? ==> ValidVolume(r.volume)
  {
    var v := Text.TrimSpace(entry);
    if v == "" then Skip
    else
      var parts := Text.Split(v, ':');
      if |parts| != 2 then Bad(WrongPartCount(v))
      else
        var host := Text.TrimSpace(parts[0]);
        var container := Text.TrimSpace(parts[1]);
        if host == "" || container == "" then Bad(EmptyPart(v))
        else if !IsAbs(container) then Bad(RelativeContainerPath(container))
        else
          Text.SplitSpec(v, ':');
          assert Text.SepFree(parts, ':');
          Text.NotInTrimSpace(parts[0], ':');
          Text.NotInTrimSpace(parts[1], ':');
          Mount(Volume(host, container))
  }

  /** A mount parsed from an entry without `|` has no `|` on either side. */
  lemma MountHasNoBar(entry: string)
    requires '|' !in entry && ParseEntry(entry).Mount?
    ensures '|' !in ParseEntry(entry).volume.host && '|' !in ParseEntry(entry).volume.container
  {
    var v := Text.TrimSpace(entry);
    var parts := Text.Split(v, ':');
    Text.SplitSpec(v, ':');
    Text.NotInTrimSpace(entry, '|');
    if '|' in parts[0] { InJoin(parts, ':', 0, '|'); }
    if '|' in parts[1] { InJoin(parts, ':', 1, '|'); }
    Text.NotInTrimSpace(parts[0], '|');
    Text.NotInTrimSpace(parts[1], '|');
  }

  /** The volumes of the `Mount` entries, in order, or the error of the
      first `Bad` entry. */
  function Collect(es: seq<Entry>): (r: Result<seq<Volume>, VolumeError>)
    ensures r.Ok? ==> |r.value| <= |es|
    decreases |es|
  {
    if |es| == 0 then Ok([])
    else
      var rest := Collect(es[1..]);
      match es[0]
      case Bad(e) => Err(e)
      case Skip => rest
      case Mount(v) => if rest.Err? then rest else Ok([v] + rest.value)
  }

  /** `Collect` fails exactly when some entry is bad, with the error of the
      first bad one; when it succeeds, every volume comes from a mount entry. */
  lemma {:induction false} CollectSpec(es: seq<Entry>)
    ensures Collect(es).Err? <==> exists k :: 0 <= k < |es| && es[k].Bad?
    ensures Collect(es).Err? ==> exists k :: 0 <= k < |es| && es[k] == Bad(Collect(es).error)
                                             && forall j :: 0 <= j < k ==> !es[j].Bad?
    ensures Collect(es).Ok? ==> forall i :: 0 <= i < |Collect(es).value| ==>
                                  exists k :: 0 <= k < |es| && es[k] == Mount(Collect(es).value[i])
    decreases |es|
  {
    if |es| > 0 {
      var tail := es[1..];
      CollectSpec(tail);
      var rest := Collect(tail);
      assert forall k :: 1 <= k < |es| ==> es[k] == tail[k - 1];
      match es[0]
      case Bad(e) => {
        assert es[0] == Bad(Collect(es).error);
      }
      case Skip => {
        if rest.Err? {
          var k :| 0 <= k < |tail| && tail[k] == Bad(rest.error) && forall j :: 0 <= j < k ==> !tail[j].Bad?;
          assert es[k + 1] == Bad(rest.error);
          assert forall j :: 0 <= j < k + 1 ==> !es[j].Bad?;
        } else {
          forall i | 0 <= i < |rest.value|
            ensures exists k :: 0 <= k < |es| && es[k] == Mount(rest.value[i])
          {
            var k :| 0 <= k < |tail| && tail[k] == Mount(rest.value[i]);
            assert es[k + 1] == Mount(rest.value[i]);
          }
        }
      }
      case Mount(v) => {
        if rest.Err? {
          var k :| 0 <= k < |tail| && tail[k] == Bad(rest.error) && forall j :: 0 <= j < k ==> !tail[j].Bad?;
          assert es[k + 1] == Bad(rest.error);
          assert forall j :: 0 <= j < k + 1 ==> !es[j].Bad?;
        } else {
          var vs := [v] + rest.value;
          assert Collect(es) == Ok(vs);
          forall i | 0 <= i < |vs|
            ensures exists k :: 0 <= k < |es| && es[k] == Mount(vs[i])
          {
            if i == 0 {
              assert es[0] == Mount(vs[0]);
            } else {
              assert vs[i] == rest.value[i - 1];
              var k :| 0 <= k < |tail| && tail[k] == Mount(rest.value[i - 1]);
              assert es[k + 1] == Mount(vs[i]);
            }
          }
        }
      }
    }
  }

  /** Every entry of the volume string, classified. */
  function Entries(spec: string): (es: seq<Entry>)
    ensures |es| == |Text.Split(spec, '|')|
    ensures forall k :: 0 <= k < |es| ==> es[k] == ParseEntry(Text.Split(spec, '|')[k])
  {
    var parts := Text.Split(spec, '|');
    seq(|parts|, k requires 0 <= k < |parts| => ParseEntry(parts[k]))
  }

  /** The pure part of `mountVolumes`: the bind mounts a volume string asks
      for, in order, or the error of its first offending entry. Blank
      entries are skipped. */
  function ParseVolumes(spec: string): (r: Result<seq<Volume>, VolumeError>)
    ensures r.Ok? ==> |r.value| <= |Text.Split(spec, '|')|
  {
    Collect(Entries(spec))
  }

  /** `ParseVolumes` fails exactly when an entry is bad, with the error of
      the first bad entry; when it succeeds, every volume is valid. (The
      entries are the pieces of `spec` between `|`s, through `Entries`.) */
  lemma ParseVolumesSpec(spec: string)
    ensures var r := ParseVolumes(spec);
            var es := Entries(spec);
            && (r.Err? <==> exists k :: 0 <= k < |es| && es[k].Bad?)
            && (r.Err? ==> exists k :: 0 <= k < |es| && es[k] == Bad(r.error)
                                      && forall j :: 0 <= j < k ==> !es[j].Bad?)
            && (r.Ok? ==> forall i :: 0 <= i < |r.value| ==> ValidVolume(r.value[i]))
  {
    var es := Entries(spec);
    CollectSpec(es);
    var r := Collect(es);
    if r.Ok? {
      forall i | 0 <= i < |r.value|
        ensures ValidVolume(r.value[i])
      {
        var k :| 0 <= k < |es| && es[k] == Mount(r.value[i]);
        assert ParseEntry(Text.Split(spec, '|')[k]).Mount?;
      }
    }
  }

  /** A volume flag value, `host:container`. */
  function Render(v: Volume): string {
    v.host + ":" + v.container
  }

  /** `strings.Join(volumes, "|")` over the flag values, as `run` passes them on. */
  function RenderAll(vs: seq<Volume>): string {
    Text.Join(seq(|vs|, i requires 0 <= i < |vs| => Render(vs[i])), '|')
  }

  /** A volume that survives the trip through the joined string: valid,
      and neither side contains the entry separator. */
  predicate Renderable(v: Volume) {
    ValidVolume(v) && '|' !in v.host && '|' !in v.container
  }

  /** An entry `host:container` whose sides are trimmed and colon-free is
      refused when a side is blank or the container side is relative, and
      is otherwise the mount of `host` at `container`. */
  lemma EntryOfSides(host: string, container: string)
    requires Text.Trimmed(host) && Text.Trimmed(container)
    requires ':' !in host && ':' !in container
    ensures var e := host + ":" + container;
            ParseEntry(e) == if host == "" || container == "" then Bad(EmptyPart(e))
                             else if !IsAbs(container) then Bad(RelativeContainerPath(container))
                             else Mount(Volume(host, container))
  {
    var e := host + ":" + container;
    assert e[0] == if host == "" then ':' else host[0];
    assert e[|e| - 1] == if container == "" then ':' else container[|container| - 1];
    Text.TrimSpaceOfTrimmed(e);
    assert Text.Join([host, container], ':') == e;
    Text.SplitJoin([host, container], ':');
    Text.TrimSpaceOfTrimmed(host);
    Text.TrimSpaceOfTrimmed(container);
  }

  lemma RenderEntry(v: Volume)
    requires ValidVolume(v)
    ensures ParseEntry(Render(v)) == Mount(v)
  {
    EntryOfSides(v.host, v.container);
  }

  lemma {:induction false} CollectMounts(vs: seq<Volume>)
    ensures Collect(seq(|vs|, i requires 0 <= i < |vs| => Mount(vs[i]))) == Ok(vs)
    decreases |vs|
  {
    var es := seq(|vs|, i requires 0 <= i < |vs| => Mount(vs[i]));
    if |vs| > 0 {
      assert es[1..] == seq(|vs[1..]|, i requires 0 <= i < |vs[1..]| => Mount(vs[1..][i]));
      CollectMounts(vs[1..]);
      assert vs == [vs[0]] + vs[1..];
    }
  }

  /** Joining renderable volumes and parsing the result gives them back. */
  lemma RoundTrip(vs: seq<Volume>)
    requires forall i :: 0 <= i < |vs| ==> Renderable(vs[i])
    ensures ParseVolumes(RenderAll(vs)) == Ok(vs)
  {
    var entries := seq(|vs|, i requires 0 <= i < |vs| => Render(vs[i]));
    if |vs| == 0 {
      assert Text.Split("", '|') == [""];
      assert Entries("") == [Skip];
    } else {
      forall i | 0 <= i < |entries|
        ensures '|' !in entries[i]
      {
        assert entries[i] == vs[i].host + ":" + vs[i].container;
      }
      Text.SplitJoin(entries, '|');
      forall i | 0 <= i < |vs|
        ensures ParseEntry(entries[i]) == Mount(vs[i])
      {
        RenderEntry(vs[i]);
      }
      assert Entries(RenderAll(vs)) == seq(|vs|, i requires 0 <= i < |vs| => Mount(vs[i]));
      CollectMounts(vs);
    }
  }

  /** A blank entry anywhere changes nothing. */
  lemma {:induction false} CollectSkip(front: seq<Entry>, back: seq<Entry>)
    ensures Collect(front + [Skip] + back) == Collect(front + back)
    decreases |front|
  {
    if |front| == 0 {
      assert front + [Skip] + back == [Skip] + back;
      assert front + back == back;
      assert ([Skip] + back)[1..] == back;
    } else {
      CollectSkip(front[1..], back);
      assert (front + [Skip] + back)[1..] == front[1..] + [Skip] + back;
      assert (front + back)[1..] == front[1..] + back;
    }
  }

  /** Blank entries, such as those around a doubled or trailing `|`, are skipped. */
  lemma BlankEntriesSkipped(a: Volume, b: Volume)
    requires Renderable(a) && Renderable(b)
    ensures ParseVolumes(Render(a) + "||" + Render(b) + "| ") == Ok([a, b])
  {
    var s := Render(a) + "||" + Render(b) + "| ";
    BlankEntryList(a, b);
    BlankCollect(a, b);
  }

  lemma BlankEntryList(a: Volume, b: Volume)
    requires Renderable(a) && Renderable(b)
    ensures Entries(Render(a) + "||" + Render(b) + "| ") == [Mount(a), Skip, Mount(b), Skip]
  {
    var parts := Text.Split(Render(a) + "||" + Render(b) + "| ", '|');
    assert parts == [Render(a), "", Render(b), " "] by {
      BlankSplit(a, b);
    }
    BlankEntries(a, b);
  }

  lemma BlankSplit(a: Volume, b: Volume)
    requires Renderable(a) && Renderable(b)
    ensures Text.Split(Render(a) + "||" + Render(b) + "| ", '|') == [Render(a), "", Render(b), " "]
  {
    var s := Render(a) + "||" + Render(b) + "| ";
    var parts := [Render(a), "", Render(b), " "];
    assert Text.Join(parts[2..], '|') == Render(b) + "| ";
    assert Text.Join(parts[1..], '|') == "|" + Render(b) + "| ";
    assert Text.Join(parts, '|') == s;
    assert Text.SepFree(parts, '|');
    Text.SplitJoin(parts, '|');
  }

  lemma CollectMountCons(v: Volume, es: seq<Entry>)
    ensures Collect([Mount(v)] + es) == if Collect(es).Ok? then Ok([v] + Collect(es).value) else Collect(es)
  {
    assert ([Mount(v)] + es)[1..] == es;
  }

  lemma BlankCollect(a: Volume, b: Volume)
    ensures Collect([Mount(a), Skip, Mount(b), Skip]) == Ok([a, b])
  {
    var e3: seq<Entry> := [Skip];
    CollectSkip([], []);
    assert [] + [Skip] + [] == e3;
    assert Collect(e3) == Ok([]);
    var e2 := [Mount(b)] + e3;
    CollectMountCons(b, e3);
    assert [b] + [] == [b];
    assert Collect(e2) == Ok([b]);
    var e1 := [Skip] + e2;
    CollectSkip([], e2);
    assert [] + [Skip] + e2 == e1;
    assert Collect(e1) == Ok([b]);
    var e0 := [Mount(a)] + e1;
    CollectMountCons(a, e1);
    assert [a] + [b] == [a, b];
    assert Collect(e0) == Ok([a, b]);
    assert e0 == [Mount(a), Skip, Mount(b), Skip];
  }

  lemma BlankEntries(a: Volume, b: Volume)
    requires ValidVolume(a) && ValidVolume(b)
    ensures ParseEntry(Render(a)) == Mount(a) && ParseEntry(Render(b)) == Mount(b)
    ensures ParseEntry(" ") == Skip && ParseEntry("") == Skip
  {
    RenderEntry(a);
    RenderEntry(b);
    assert Text.TrimSpace(" ") == "";
  }

  /** An entry without exactly one ':' is refused. */
  lemma WrongPartCountCases()
    ensures ParseEntry("/data") == Bad(WrongPartCount("/data"))
    ensures ParseEntry("/a:/b:/c") == Bad(WrongPartCount("/a:/b:/c"))
  {
    NoColonCase();
    TwoColonCase();
  }

  lemma NoColonCase()
    ensures ParseEntry("/data") == Bad(WrongPartCount("/data"))
  {
    assert Text.TrimSpace("/data") == "/data" by {
      Text.TrimSpaceOfTrimmed("/data");
    }
    assert |Text.Split("/data", ':')| == 1 by {
      Text.SplitJoin(["/data"], ':');
    }
  }

  lemma TwoColonCase()
    ensures ParseEntry("/a:/b:/c") == Bad(WrongPartCount("/a:/b:/c"))
  {
    assert Text.TrimSpace("/a:/b:/c") == "/a:/b:/c" by {
      Text.TrimSpaceOfTrimmed("/a:/b:/c");
    }
    assert |Text.Split("/a:/b:/c", ':')| == 3 by {
      assert Text.Join(["/a", "/b", "/c"], ':') == "/a:/b:/c";
      Text.SplitJoin(["/a", "/b", "/c"], ':');
    }
  }

  /** An entry with a blank side is refused. */
  lemma EmptyPartCase()
    ensures ParseEntry("/data: ") == Bad(EmptyPart("/data:"))
  {
    assert Text.TrimSpace("/data: ") == "/data:";
    assert Text.Split("/data:", ':') == ["/data", ""] by {
      assert Text.Join(["/data", ""], ':') == "/data:";
      Text.SplitJoin(["/data", ""], ':');
    }
    assert Text.TrimSpace("") == "";
  }

  /** An entry whose container side is relative is refused. */
  lemma RelativePathCase()
    ensures ParseEntry("/data:app") == Bad(RelativeContainerPath("app"))
  {
    EntryOfSides("/data", "app");
    assert "/data" + ":" + "app" == "/data:app";
  }
}

=== FILE: wrappers.dfy ===
/** Failure-carrying result types shared by every module of the model.
    Go functions that return `(T, error)` are modelled as `Result<T, E>`;
    lookups that may find nothing are modelled as `Option<T>`. */
module Wrappers {

  datatype Option<+T> = None | Some(value: T)

  datatype Result<+T, +E> = Ok(value: T) | Err(error: E)
}
